=== FILE: README.md ===
# For a Moment — a Dafny model of the retro display and its terminal

"For a Moment" is a small web experience. A warning overlay fades into a
CRT-style terminal. The terminal types out lines of a tiny branching
conversation, and the user answers them by picking from offered choices.

This project models two parts of it:

- `src/lib/retro.ts`, the renderer, which turns one frame's text into a
  chunky, colour-fringed, striped, scanlined image;
- the logic of `src/components/RetroExperience.tsx`, the component around
  it: the dialogue graph, canvas sizing, the text handed to the renderer,
  typing and erasing, picking a choice, and the screen phases.

Modules, one per concept:

| module | models |
|---|---|
| `Wrappers` | `Option`, standing for JavaScript's `undefined` |
| `PixelIndex` | `idx`: where pixel (x, y) starts in an RGBA buffer, and why the layout is a bijection |
| `RetroOptions` | the default options, the `{...defaults, ...opts}` merge, the low-resolution sizes, the channel offset and the flicker factor |
| `ColorParse` | the string half of `cssToRgb`: the regular expression `/(\d+),\s*(\d+),\s*(\d+)/`, the leftmost match, `parseInt`, and black when nothing matches |
| `Compositor` | the `renderRetro` pixel loop: block sampling, the alpha threshold, the blend, the stripe mask, the finished buffer and the scanline rows |
| `CanvasSize` | `resizeCanvasToElement` |
| `Dialogue` | `NODES` and `getNode` |
| `Typewriter` | `terminalTextForCanvas`, and the successive values that `typeTo` and `untype` give the typed text |
| `Conversation` | `onPick` with its `isAnimating` guard, and typing the first prompt when the terminal appears |
| `Phases` | `onContinue`, its two timers and the flags derived from the phase |
| `Experience` | one animation frame: resize, then render with the component's options |

Values the program gets from the browser become parameters:

- the glyph buffer the text rasterizer produces (`getImageData`);
- the browser's computed colour string;
- the frame's `Math.random()` draw;
- the element's bounding box and `devicePixelRatio`.

Three behaviours of the renderer that the model keeps as the code has them:

- Only the red and blue sample columns are clamped to the glyph buffer. The
  green/alpha column `sx = floor(x / pixelScale)` is not. When the canvas
  is at least `pixelScale` wide and its width is not a multiple of the
  scale, the last output columns have `sx == lowW`. Their alpha and green
  reads then land on the first block of the next glyph row, or, on the last
  row, past the end of the buffer, which gives the background. Their red
  and blue reads stay in their own row, because those columns are clamped.
  `Compositor.EdgeColumnReadsNextRow`, `Compositor.PastEndIsBackground` and
  the `EdgeExample` lemmas state this behaviour. In the example, a 4 × 6
  canvas at scale 3, the lit glyph block of the second row shows through,
  in green, in output column 3 of the first row, above and to the right of
  that block.
- The scanline overlay is a plain `fillRect` at `globalAlpha`. The model
  records which rows it covers.
- A zero-sized canvas makes `createImageData` throw.
  `resizeCanvasToElement` never produces one, and `RenderRetro` requires a
  canvas at least one pixel each way.

## Model

| member | source | states |
|---|---|---|
| PixelIndex.Idx | src/lib/retro.ts:14 | pixel (x, y) of a row `width` pixels wide occupies four bytes inside row y's stretch of 4·width bytes |
| PixelIndex.IdxInBounds | src/lib/retro.ts:133-137 | every output pixel's four bytes lie inside a w·h·4 buffer |
| PixelIndex.IdxInjective | src/lib/retro.ts:14 | distinct (pixel, channel) pairs never share a byte of the buffer |
| PixelIndex.IdxOrdered | src/lib/retro.ts:14 | pixels earlier in row-major order occupy earlier, non-overlapping bytes |
| PixelIndex.IdxCovers | src/lib/retro.ts:14 | every byte of a w·h·4 buffer belongs to exactly the pixel x = k % w, y = k / w with channel i % 4 (k = i / 4) |
| RetroOptions.EmptyOverridesGiveDefaults | src/lib/retro.ts:33-43 | with no options the frame uses exactly the defaults: "RETRO DISPLAY", 72, scale 3, offset 2, alphas 0.22/0.22, flicker 0.08, "#0b0b0b", and the Fixedsys font stack |
| RetroOptions.FullOverridesWin | src/lib/retro.ts:42 | a caller that gives every option gets exactly its own options |
| RetroOptions.WithDefaults | src/lib/retro.ts:33-43 | every key the caller gives reaches the merged options as given, and every key it leaves out takes the default object's value |
| RetroOptions.OverrideOneKeyOnly | src/lib/retro.ts:33-43 | overriding any single one of the nine keys changes that key and leaves the other eight at their defaults |
| RetroOptions.FontFamily | src/lib/retro.ts:68-69 | the caller's font family when given, otherwise the Fixedsys stack |
| RetroOptions.Downsample | src/lib/retro.ts:96 | the block coordinate s satisfies s·ps ≤ x < (s+1)·ps |
| RetroOptions.LowSize | src/lib/retro.ts:52-53 | the low-resolution size is at least 1, and is the floor of n / ps whenever n ≥ ps |
| RetroOptions.LowFontSize | src/lib/retro.ts:67 | the low-resolution font size is at least 6, and is the floor of fontSize / ps when that is larger |
| RetroOptions.RgbOffLow | src/lib/retro.ts:90 | the channel offset in blocks is never negative; it is 0 when rgbOffset·dpr is below one block, and otherwise at least 1 and exactly floor(rgbOffset·dpr / ps) |
| RetroOptions.FlickFollowsDraw | src/lib/retro.ts:93 | the factor is 1 − flicker at the smallest draw and 1 at the middle draw, and with positive flicker a larger draw gives a strictly larger factor; the factor minus 1 is exactly (2u − 1) · flicker |
| RetroOptions.Flick | src/lib/retro.ts:93 | the flicker factor lies in [1 − flicker, 1 + flicker], is non-negative when flicker ≤ 1, and is 1 when flicker is 0 |
| ColorParse.Span | src/lib/retro.ts:23 | a greedy run: every character in it satisfies the class, and the character after it does not |
| ColorParse.DigitsFrom | src/lib/retro.ts:23 | `\d+` succeeds exactly when a digit is there, and consumes the maximal digit run |
| ColorParse.IsSpace | src/lib/retro.ts:23 | `\s` accepts space, tab, line feed and carriage return, and rejects digits and the comma |
| ColorParse.SeparatorFrom | src/lib/retro.ts:23 | `,\s*` succeeds exactly on a comma, and consumes the maximal white space after it |
| ColorParse.MatchAtSound | src/lib/retro.ts:23 | what the matcher returns satisfies the expression, and its last group is not followed by a digit |
| ColorParse.MatchAtComplete | src/lib/retro.ts:23 | any way the expression can match at a position has the matcher's separators and first two groups, and a last group no longer than the matcher's |
| ColorParse.MatchAt | src/lib/retro.ts:23 | a match tried at p starts at p, on a digit, and ends inside the string |
| ColorParse.FindFrom | src/lib/retro.ts:23 | the match `String.prototype.match` returns is a genuine match at its start position |
| ColorParse.FindFromIsLeftmost | src/lib/retro.ts:23 | no match starts before the one returned, and none exists anywhere when nothing is returned |
| ColorParse.ComputedToRgb | src/lib/retro.ts:23-25 | a string the expression matches nowhere gives black (0, 0, 0) |
| ColorParse.NoDigitsGiveBlack | src/lib/retro.ts:24 | a colour string without digits gives black |
| ColorParse.Decimal | src/lib/retro.ts:25 | `parseInt` of n decimal digits is below 10^n, and at least 10^(n−1) when the first digit is not 0 |
| ColorParse.GroupValues | src/lib/retro.ts:25 | each channel is the number its group spells: a group in canonical notation is exactly the decimal notation of the value read |
| ColorParse.CanonicalReadsBack | src/lib/retro.ts:25 | writing back the number `parseInt` reads from a canonical digit string gives the same digits |
| ColorParse.DecimalString | src/lib/retro.ts:25 | the browser's decimal notation is all digits, has no leading zero, and `parseInt` reads it back as the number |
| ColorParse.ReadsFirstTriple | src/lib/retro.ts:23-25 | "prefix r, g, b suffix" reads back as (r, g, b) when the prefix has no digit and the suffix does not start with one |
| ColorParse.RgbRoundTrip | src/lib/retro.ts:21-25 | "rgb(r, g, b)" reads back as (r, g, b) |
| ColorParse.RgbaRoundTrip | src/lib/retro.ts:21-25 | "rgba(r, g, b, 0.5)" reads back as (r, g, b); the alpha is ignored |
| Compositor.Clamp | src/lib/retro.ts:13 | clamp returns v inside [lo, hi], lo below it and hi above it |
| Compositor.ClampReal | src/lib/retro.ts:13 | the same on real numbers, used on blended channels |
| Compositor.SampleAt | src/lib/retro.ts:96-109 | red and blue columns are shifted by the offset toward the two sides and clamped into the buffer's width: red to 0 when the shift falls left of the buffer and to lowW − 1 when it falls right, blue to lowW − 1 when it falls right; green is the unshifted block column; with no offset all three coincide |
| Compositor.Covered | src/lib/retro.ts:111-115 | the glyph test passes exactly when the alpha read is defined and at least 3 |
| Compositor.AlphaRead | src/lib/retro.ts:101-111 | a pixel whose block row is below the glyph buffer reads `undefined`; a pixel whose block lies inside the buffer reads that block's alpha byte |
| Compositor.ByteAt | src/lib/retro.ts:111 | reading the glyph buffer yields a byte exactly when the index is inside it (otherwise `undefined`) |
| Compositor.CoveredIffAlphaAtLeastThree | src/lib/retro.ts:111-115 | alpha/255 > 0.01 holds exactly for alpha bytes ≥ 3 |
| Compositor.CoveredReadIsInside | src/lib/retro.ts:107-115 | a covered alpha read lies in a real glyph row, so all of that row's red and blue reads are inside the buffer |
| Compositor.Blend | src/lib/retro.ts:116-122 | a blended channel is bg + v·flick·0.85 when that lies in [0, 255], 255 above and 0 below; it never darkens the background, and equals it when the glyph channel is 0 |
| Compositor.BlendIsMonotone | src/lib/retro.ts:116-122 | with non-negative flicker, a brighter glyph channel never gives a darker blend |
| Compositor.Mask | src/lib/retro.ts:124-130 | column x keeps channel x % 3 and scales the other two by 1 − maskAlpha; with no mask the colour is unchanged |
| Compositor.MaskKeepsByteRange | src/lib/retro.ts:124-130 | with a mask strength in [0, 1] the masked channels stay in [0, 255] |
| Compositor.Pixel | src/lib/retro.ts:111-137 | every output pixel is opaque; a pixel whose alpha read is not covered is exactly the background; channels stay in [0, 255] |
| Compositor.Glyph | src/lib/retro.ts:115-130 | a covered pixel is opaque with channels in [0, 255] |
| Compositor.Blended | src/lib/retro.ts:116-122 | the three sampled channels, blended, lie in [0, 255] |
| Compositor.FrameSetup | src/lib/retro.ts:49-93 | the frame uses the merged scale, mask strength and parsed background; lowW and lowH are max(1, floor(size / pixelScale)); the channel offset is rgbOffLow; the flicker factor is the one for the draw u; the glyph buffer fits exactly when its length is lowW·lowH·4 |
| Compositor.RenderPixels | src/lib/retro.ts:95-139 | the loop fills a w·h·4 buffer in which every pixel's four bytes are that pixel's colour |
| Compositor.FillImage | src/lib/retro.ts:95-98 | a row-by-row fill leaves every pixel's quad at its own index |
| Compositor.FillRow | src/lib/retro.ts:98-138 | filling one row keeps every earlier row and places each pixel of this row at its index |
| Compositor.ScanlineRows | src/lib/retro.ts:144-148 | a row is darkened exactly when scanlineAlpha > 0 and the row is a multiple of 3 inside the canvas; rows come in increasing order |
| Compositor.RenderRetro | src/lib/retro.ts:28-150 | a frame is a w·h·4 buffer holding each pixel's colour under the merged options and parsed background, plus every third row darkened when scanlineAlpha > 0 |
| Compositor.SampleColumnAtMostLowW | src/lib/retro.ts:99 | the unclamped block column is at most lowW, and reaches lowW only when the width is not a multiple of the scale |
| Compositor.LastColumnSamplesPastRow | src/lib/retro.ts:99 | when the width is at least the scale and not a multiple of it, the last column's block column is exactly lowW |
| Compositor.MultiplesSampleInside | src/lib/retro.ts:96-111 | when both sizes are multiples of the scale, every alpha read is inside the buffer |
| Compositor.EdgeColumnReadsNextRow | src/lib/retro.ts:99-130 | a pixel whose block column is lowW reads alpha and green from the first block of the next row; red comes from column lowW − off of its own row (the last column when off = 0, column 0 when off > lowW) and blue from its row's last column; a covered such pixel is those three channels blended and stripe-masked |
| Compositor.PastEndIsBackground | src/lib/retro.ts:111-115 | reads below the last glyph row, or past the end of the last one, are `undefined` and give the background whatever the glyphs are |
| Compositor.EdgeExampleOwnBlockIsBackground | src/lib/retro.ts:111-115 | on a 4-wide, scale-3 canvas whose first glyph block is empty, pixel (0, 0) is background |
| Compositor.EdgeExampleShowsGreenFringe | src/lib/retro.ts:99-137 | in the same frame, pixel (3, 0) borrows the next row's glyph and shows green (0, 170, 0) |
| Compositor.EdgeExampleBlend | src/lib/retro.ts:116-122 | blending that borrowed block over black gives (0, 170, 0) |
| Compositor.CoveredPixelChannels | src/lib/retro.ts:99-130 | a covered pixel whose block column is inside the buffer lies in a real row, is opaque, and carries the stripe mask applied to the blend of red from the left-shifted column, green from its own block and blue from the right-shifted column, each byte read from that row |
| Compositor.NoOffsetSamplesOneBlock | src/lib/retro.ts:103-122 | with no offset and no mask, a covered pixel takes all three channels from its own block |
| Compositor.BlankGlyphsGiveBackground | src/lib/retro.ts:111-115 | a glyph buffer with no alpha above 2 renders entirely as background |
| Compositor.StripeKeepsOwnChannel | src/lib/retro.ts:120-130 | a covered pixel's own stripe channel is never darker than the background's |
| CanvasSize.DeviceRatio | src/components/RetroExperience.tsx:51 | the ratio is capped into [1, 2]; `undefined`, NaN, 0 and anything ≤ 1 give 1 |
| CanvasSize.BackingSize | src/components/RetroExperience.tsx:53-54 | the backing size is at least 1, and is floor(css·dpr) when that is at least 1 |
| CanvasSize.ResizeCanvasToElement | src/components/RetroExperience.tsx:49-61 | the returned ratio is the capped device ratio (1 when it is 0 or missing); the canvas ends at the backing sizes for that ratio; it is written exactly when they differ from the current size |
| CanvasSize.ResizeIsIdempotent | src/components/RetroExperience.tsx:56-59 | resizing again for the same box writes nothing and changes nothing |
| CanvasSize.BackingStoreMatchesBox | src/components/RetroExperience.tsx:53-54 | a box of at least one CSS pixel each way gets exactly floor(box·dpr) device pixels |
| Dialogue.Find | src/components/RetroExperience.tsx:47 | `find` returns the first node with the id, and nothing exactly when no node has it |
| Dialogue.GetNode | src/components/RetroExperience.tsx:47 | the result is one of the nodes: the one with the id when it exists, else the first node |
| Dialogue.IdsAreUnique | src/components/RetroExperience.tsx:14-45 | no two nodes share an id |
| Dialogue.GetNodeFindsEachNode | src/components/RetroExperience.tsx:47 | looking up each node's own id returns that node |
| Dialogue.EveryChoiceLeadsToANode | src/components/RetroExperience.tsx:14-45 | every choice's target exists, so following one never falls back |
| Dialogue.ConversationReachesEnd | src/components/RetroExperience.tsx:14-45 | every choice away from "end" moves strictly closer to it (within three picks); "end" only leads back to "start" |
| Dialogue.Follow | src/components/RetroExperience.tsx:218-221 | following a node's k-th choice lands on a node whose id is that choice's target |
| Dialogue.EveryNodeOffersAChoice | src/components/RetroExperience.tsx:14-45 | every node offers at least one choice |
| Typewriter.CanvasText | src/components/RetroExperience.tsx:84-87 | the drawn text is the typed text plus one final character: the cursor glyph when the cursor is on, a space when it is off |
| Typewriter.CanvasTextIsInjective | src/components/RetroExperience.tsx:84-87 | the drawn text determines both the typed text and the cursor state |
| Typewriter.TypeStates | src/components/RetroExperience.tsx:159-167 | typing starts empty, adds the next character of the text at each step, and ends at the whole text |
| Typewriter.UntypeStates | src/components/RetroExperience.tsx:169-178 | erasing removes exactly the last character at each step, every value is a prefix of the text, and it ends empty |
| Typewriter.UntypeRetracesTyping | src/components/RetroExperience.tsx:159-178 | erasing a text passes through typing's states in reverse |
| Typewriter.TypeTo | src/components/RetroExperience.tsx:159-167 | the `for` loop produces exactly the typing states |
| Typewriter.Untype | src/components/RetroExperience.tsx:169-178 | the `while` loop produces exactly the erasing states |
| Conversation.ChoiceText | src/components/RetroExperience.tsx:266 | the user's choice is shown when there is one, and the shown text is never empty |
| Conversation.Pick | src/components/RetroExperience.tsx:205-223 | a pick while animating does nothing; otherwise every state records the choice and shows the user area, and every state but the last is animating; the text changes one keystroke at a time; on the old node it is erased through the erasing states down to "", and on the new node the prompt is typed through the typing states; the run ends at rest on the target node showing its whole prompt |
| Conversation.PicksDoNotInterleave | src/components/RetroExperience.tsx:207-208 | a second pick during any state of a running pick is ignored |
| Conversation.PickEndsAtRest | src/components/RetroExperience.tsx:207-223 | picking an offered choice from rest ends at rest on that choice's node, with its prompt typed in full |
| Conversation.EnterTerminal | src/components/RetroExperience.tsx:181-203 | entering the terminal types the current node's prompt through the typing states, from "" one keystroke at a time, while animating; it then shows the user area |
| Conversation.StartEndsAtRest | src/components/RetroExperience.tsx:181-203 | from the initial state the terminal ends at rest on "start" showing "hi" |
| Phases.FlagsOf | src/components/RetroExperience.tsx:237-240 | the warning fading implies both layers show; the terminal fading in implies the warning is gone; some layer always shows |
| Phases.FlagsFollowOrder | src/components/RetroExperience.tsx:237-240 | each flag is a threshold on the phase order; both layers show exactly while the warning fades |
| Phases.CursorBlinks | src/components/RetroExperience.tsx:150-156 | the cursor blinks exactly in the phases "terminalFadingIn" and "terminal" |
| Phases.CursorBlinksWithoutWarning | src/components/RetroExperience.tsx:150-156 | the cursor blinks exactly when the warning is gone |
| Phases.Step | src/components/RetroExperience.tsx:225-234 | whatever the phase before, Continue makes the warning fade, the first timer fades the terminal in, and the second shows the terminal alone |
| Phases.Run | src/components/RetroExperience.tsx:225-234 | a run has one phase per event, and each is the phase its own event sets, since `setPhase` never reads the phase it replaces |
| Phases.ContinueWalksThePhases | src/components/RetroExperience.tsx:225-234 | one press walks the four phases in order and ends in the terminal |
| Phases.ContinueTypesOnce | src/components/RetroExperience.tsx:181-183 | along that walk the prompt starts typing exactly once, on entering the terminal |
| Phases.TimersFireAfterAllPresses | src/components/RetroExperience.tsx:225-234 | for presses made while the warning shows, every press precedes every first timer, which precedes every second timer |
| Phases.PressedPhases | src/components/RetroExperience.tsx:225-234 | after k presses the phases run k × "warningFading", k × "terminalFadingIn", then k × "terminal" |
| Phases.RepeatedContinueOnlyMovesForward | src/components/RetroExperience.tsx:225-234 | repeated presses never move the screen backwards, end in the terminal, and start typing exactly once |
| Experience.CanvasOverrides | src/components/RetroExperience.tsx:89-102 | the component's option object gives all nine keys, so merging it with the defaults gives it back unchanged |
| Experience.ComponentOptionsOverrideAllDefaults | src/components/RetroExperience.tsx:89-102 | the component supplies every option, so the frame uses its look (64 px, scale 3, offset 2, 0.18 scanlines, 0.22 mask, 0.04 flicker) and the current text |
| Experience.DrawFrame | src/components/RetroExperience.tsx:131-136 | each frame is rendered at the resized canvas size; every pixel of the buffer is the pixel computed under the component's options at the resized ratio; scanlines fall on every third row |

## Left out

- Text rasterization (`retro.ts` lines 55-83) is not modelled:
  - the offscreen canvas, `font`, `textAlign` and `textBaseline`;
  - the shadow settings, and `fillText` itself.

  Its result, the low-resolution glyph buffer, is an input whose length is
  lowW·lowH·4.
- The DOM half of `cssToRgb` (lines 17-22), where the browser turns a CSS
  colour into its computed string. That string is an input.
- The background `fillRect` (lines 61-62): the opaque `putImageData` fully
  replaces it.
- The `putImageData` blit and the compositing of scanline rows into pixels.
  The model yields the pixel buffer and the list of darkened rows.
- Compositor.RenderPixels: channels are exact real numbers. The source's
  IEEE doubles and the `Uint8ClampedArray` rounding on store (round half to
  even into 0..255) are not modelled.
- RetroOptions.Flick: `Math.random()` is an input `u` in [0, 1).
- Compositor.RenderRetro: `pixelScale` must be an integer ≥ 1. Other scales
  are excluded, although the source accepts them. A fractional scale such
  as 2.5 still gives integer `lowW`, `lowH`, `sx` and `sy`, because each
  passes through `Math.floor`. A negative scale gives `lowW = lowH = 1` and
  sample columns of 0 or below. Only a scale of 0 gives infinite sizes.
- Compositor.RenderRetro: the canvas must be at least 1×1, because
  `createImageData` throws on zero sizes.
- ColorParse.MatchAt: its own contract states only where a match starts and
  ends. The groups and the greedy last group are stated by
  `ColorParse.MatchAtSound` and `ColorParse.MatchAtComplete`, which keeps
  every use of the matcher cheap to verify.
- RetroOptions.WithDefaults: an option given with the explicit value
  `undefined` is not modelled. An absent option and `None` are the same.
- ColorParse.Decimal: `parseInt` is exact. Precision loss for digit strings
  beyond 2^53 is not modelled.
- Strings are sequences of Unicode scalar values, while JavaScript's
  `length` and `slice` count UTF-16 code units. Every prompt and label here
  lies in the Basic Multilingual Plane, so the two agree.
- Conversation.Pick: a run lists one state per update of the typed text or
  the animation flag. React's batching of synchronous updates and the
  16–36 ms delays are not modelled. The brief moment between `untype`
  ending and `typeTo` starting is merged into the animation.
- Conversation.EnterTerminal: the `alive` cancellation is not modelled,
  because the phase never leaves "terminal" once it is reached.
- The 2-second delay before the first prompt is not modelled, and neither
  is a pick made during it.
- The font-loading effect, the `requestAnimationFrame` loop, the idle
  `ResizeObserver` and the cursor's 520 ms interval are all effects and
  timers, and are not modelled. That the cursor blinks only outside the
  warning phases is modelled.
- CSS classes, layout and the static warning text are not modelled.

=== FILE: canvas_size.dfy ===
/** `resizeCanvasToElement`: the device pixel ratio is capped to [1, 2] and
    the canvas's backing store is sized to its on-screen box times that
    ratio, at least one pixel each way. */
module CanvasSize {
  import opened Wrappers

  /** `Math.min(2, Math.max(1, window.devicePixelRatio || 1))`. The ratio is
      None when it is `undefined` or NaN; like 0, both are falsy and give 1. */
  function DeviceRatio(ratio: Option<real>): (dpr: real)
    ensures 1.0 <= dpr <= 2.0
    ensures ratio.Some? && 1.0 <= ratio.value <= 2.0 ==> dpr == ratio.value
    ensures ratio.None? || ratio.value <= 1.0 ==> dpr == 1.0
    ensures ratio.Some? && 2.0 <= ratio.value ==> dpr == 2.0
  {
    var v := if ratio.None? || ratio.value == 0.0 then 1.0 else ratio.value;
    var atLeastOne := if 1.0 < v then v else 1.0;
    if atLeastOne < 2.0 then atLeastOne else 2.0
  }

  /** `Math.max(1, Math.floor(cssSize * dpr))`. */
  function BackingSize(cssSize: real, dpr: real): (n: int)
    ensures 1 <= n
    ensures n == 1 || (n as real <= cssSize * dpr < n as real + 1.0)
    ensures 1.0 <= cssSize * dpr ==> n as real <= cssSize * dpr < n as real + 1.0
  {
    var f := (cssSize * dpr).Floor;
    if f < 1 then 1 else f
  }

  datatype Canvas = Canvas(width: int, height: int)

  /** The ratio returned, the canvas afterwards, and whether its size was
      written (assigning a canvas size clears it, so it is skipped when
      nothing changes). */
  datatype Resized = Resized(dpr: real, canvas: Canvas, written: bool)

  function ResizeCanvasToElement(canvas: Canvas, rectWidth: real, rectHeight: real, ratio: Option<real>): (r: Resized)
    ensures 1.0 <= r.dpr <= 2.0 && r.dpr == DeviceRatio(ratio)
    ensures 1 <= r.canvas.width && 1 <= r.canvas.height
    ensures r.canvas.width == BackingSize(rectWidth, r.dpr) && r.canvas.height == BackingSize(rectHeight, r.dpr)
    ensures r.written <==> r.canvas != canvas
  {
    var dpr := DeviceRatio(ratio);
    var target := Canvas(BackingSize(rectWidth, dpr), BackingSize(rectHeight, dpr));
    if canvas.width != target.width || canvas.height != target.height then Resized(dpr, target, true)
    else Resized(dpr, canvas, false)
  }

  /** Resizing an already resized canvas for the same box assigns nothing. */
  lemma ResizeIsIdempotent(canvas: Canvas, rectWidth: real, rectHeight: real, ratio: Option<real>)
    ensures var once := ResizeCanvasToElement(canvas, rectWidth, rectHeight, ratio);
      var twice := ResizeCanvasToElement(once.canvas, rectWidth, rectHeight, ratio);
      !twice.written && twice == once.(written := false)
  {
  }

  /** A box at least one device pixel wide and high gets a backing store of
      exactly floor(box * ratio) in each direction. */
  lemma BackingStoreMatchesBox(canvas: Canvas, rectWidth: real, rectHeight: real, ratio: Option<real>)
    requires 1.0 <= rectWidth && 1.0 <= rectHeight
    ensures var r := ResizeCanvasToElement(canvas, rectWidth, rectHeight, ratio);
      && r.canvas.width == (rectWidth * r.dpr).Floor
      && r.canvas.height == (rectHeight * r.dpr).Floor
  {
    var dpr := DeviceRatio(ratio);
    assert 1.0 <= rectWidth * dpr && 1.0 <= rectHeight * dpr by {
      RealProductAtLeastOne(rectWidth, dpr);
      RealProductAtLeastOne(rectHeight, dpr);
    }
  }

  lemma RealProductAtLeastOne(a: real, b: real)
    requires 1.0 <= a && 1.0 <= b
    ensures 1.0 <= a * b
  {
    assert a * b - a == a * (b - 1.0);
    assert 0.0 <= a * (b - 1.0);
  }
}

=== FILE: color_parse.dfy ===
/** The string half of `cssToRgb`: the browser's computed colour string (for
    example "rgb(11, 11, 11)") is searched with the regular expression
    /(\d+),\s*(\d+),\s*(\d+)/ and the three captured groups are read as
    decimal numbers; when nothing matches the colour is black. */
module ColorParse {
  import opened Wrappers

  datatype Rgb = Rgb(r: nat, g: nat, b: nat)

  /** `\d`: an ASCII decimal digit. */
  predicate IsDigit(c: char) {
    '0' <= c <= '9'
  }

  /** `\s`: the JavaScript white-space and line-terminator characters. */
  predicate IsSpace(c: char): (b: bool)
    ensures c == ' ' || c == '\t' || c == '\n' || c == '\r' ==> b
    ensures IsDigit(c) || c == ',' ==> !b
  {
    || ('\U{0009}' <= c <= '\U{000D}')
    || c == ' ' || c == '\U{00A0}' || c == '\U{1680}'
    || ('\U{2000}' <= c <= '\U{200A}')
    || c == '\U{2028}' || c == '\U{2029}' || c == '\U{202F}'
    || c == '\U{205F}' || c == '\U{3000}' || c == '\U{FEFF}'
  }

  /** Every character of s[lo..hi] satisfies f. */
  predicate AllIn(s: string, lo: int, hi: int, f: char -> bool) {
    0 <= lo <= hi <= |s| && forall k | lo <= k < hi :: f(s[k])
  }

  /** Length of the longest run of characters satisfying f that starts at p
      (what a greedy `\d+` or `\s*` consumes). */
  function Span(s: string, p: nat, f: char -> bool): (n: nat)
    requires p <= |s|
    ensures AllIn(s, p, p + n, f)
    ensures p + n == |s| || !f(s[p + n])
    decreases |s| - p
  {
    if p < |s| && f(s[p]) then 1 + Span(s, p + 1, f) else 0
  }

  /** The positions of a match: group 1 is s[start..end1], group 2 is
      s[start2..end2] and group 3 is s[start3..end3]. */
  datatype Groups = Groups(start: nat, end1: nat, start2: nat, end2: nat, start3: nat, end3: nat)

  /** The regular expression matches `s` at `g.start` with the groups `g`,
      ignoring which of several matches the engine prefers. */
  ghost predicate MatchesWith(s: string, g: Groups) {
    && g.start < g.end1 < g.start2 < g.end2 < g.start3 < g.end3 <= |s|
    && AllIn(s, g.start, g.end1, IsDigit) && s[g.end1] == ','
    && AllIn(s, g.end1 + 1, g.start2, IsSpace)
    && AllIn(s, g.start2, g.end2, IsDigit) && s[g.end2] == ','
    && AllIn(s, g.end2 + 1, g.start3, IsSpace)
    && AllIn(s, g.start3, g.end3, IsDigit)
  }

  /** Where a `\d+` starting at p ends, if at least one digit is there. */
  function DigitsFrom(s: string, p: nat): (e: Option<nat>)
    requires p <= |s|
    ensures e.Some? ==> p < e.value && AllIn(s, p, e.value, IsDigit)
    ensures e.Some? ==> e.value == |s| || !IsDigit(s[e.value])
    ensures e.None? ==> p == |s| || !IsDigit(s[p])
  {
    var n := Span(s, p, IsDigit);
    if n == 0 then None else Some(p + n)
  }

  /** Where a `,\s*` starting at q ends, if a comma is there. */
  function SeparatorFrom(s: string, q: nat): (e: Option<nat>)
    requires q <= |s|
    ensures e.Some? ==> q < |s| && s[q] == ',' && AllIn(s, q + 1, e.value, IsSpace)
    ensures e.Some? ==> e.value == |s| || !IsSpace(s[e.value])
    ensures e.None? ==> q == |s| || s[q] != ','
  {
    if q < |s| && s[q] == ',' then Some(q + 1 + Span(s, q + 1, IsSpace)) else None
  }

  /** The match the regular expression engine finds when it tries position p.
      Every quantifier is greedy; because a digit is neither a comma nor white
      space, backtracking never yields a different match except for the last
      group, where the greedy choice is the longest. */
  function MatchAt(s: string, p: nat): (m: Option<Groups>)
    requires p <= |s|
    ensures m.Some? ==> m.value.start == p && m.value.end3 <= |s|
    ensures m.Some? ==> p < |s| && IsDigit(s[p])
  {
    match DigitsFrom(s, p)
    case None => None
    case Some(end1) =>
      match SeparatorFrom(s, end1)
      case None => None
      case Some(start2) =>
        match DigitsFrom(s, start2)
        case None => None
        case Some(end2) =>
          match SeparatorFrom(s, end2)
          case None => None
          case Some(start3) =>
            match DigitsFrom(s, start3)
            case None => None
            case Some(end3) => Some(Groups(p, end1, start2, end2, start3, end3))
  }

  /** What MatchAt returns is a match, and its last group cannot be
      extended by another digit. */
  lemma MatchAtSound(s: string, p: nat)
    requires p <= |s| && MatchAt(s, p).Some?
    ensures MatchesWith(s, MatchAt(s, p).value)
    ensures var m := MatchAt(s, p).value; m.end3 == |s| || !IsDigit(s[m.end3])
  {
  }

  /** Every way the expression can match at a position agrees with MatchAt on
      the first two groups and the separators, and the third group MatchAt
      returns is the longest. */
  lemma MatchAtComplete(s: string, g: Groups)
    requires MatchesWith(s, g)
    ensures MatchAt(s, g.start).Some?
    ensures var m := MatchAt(s, g.start).value;
      && m.end1 == g.end1 && m.start2 == g.start2 && m.end2 == g.end2
      && m.start3 == g.start3 && g.end3 <= m.end3
  {
    DigitsFromExact(s, g.start, g.end1);
    assert IsDigit(s[g.start2]);
    SeparatorFromExact(s, g.end1, g.start2);
    DigitsFromExact(s, g.start2, g.end2);
    assert IsDigit(s[g.start3]);
    SeparatorFromExact(s, g.end2, g.start3);
    DigitsFromLongest(s, g.start3, g.end3);
  }

  /** A maximal non-empty digit run is what DigitsFrom measures. */
  lemma DigitsFromExact(s: string, p: nat, e: nat)
    requires p < e && AllIn(s, p, e, IsDigit)
    requires e == |s| || !IsDigit(s[e])
    ensures DigitsFrom(s, p) == Some(e)
  {
    SpanExact(s, p, e, IsDigit);
  }

  /** DigitsFrom reaches at least as far as any non-empty digit run. */
  lemma DigitsFromLongest(s: string, p: nat, e: nat)
    requires p < e && AllIn(s, p, e, IsDigit)
    ensures DigitsFrom(s, p).Some? && e <= DigitsFrom(s, p).value
  {
    assert IsDigit(s[p]);
  }

  /** A comma followed by maximal white space is what SeparatorFrom measures. */
  lemma SeparatorFromExact(s: string, q: nat, e: nat)
    requires q < |s| && s[q] == ',' && AllIn(s, q + 1, e, IsSpace)
    requires e == |s| || !IsSpace(s[e])
    ensures SeparatorFrom(s, q) == Some(e)
  {
    SpanExact(s, q + 1, e, IsSpace);
  }

  /** A run of characters satisfying f that ends at q, where the string ends
      or a character fails f, is exactly what Span measures. */
  lemma SpanExact(s: string, p: nat, q: nat, f: char -> bool)
    requires AllIn(s, p, q, f)
    requires q == |s| || !f(s[q])
    ensures Span(s, p, f) == q - p
  {
  }

  /** The first position in p..n where `at` yields something: how a
      regular expression search advances one position at a time. */
  function FirstAt<T>(at: nat --> Option<T>, p: nat, n: nat): (i: Option<nat>)
    requires p <= n && forall q | p <= q <= n :: at.requires(q)
    ensures i.Some? ==> p <= i.value <= n && at(i.value).Some?
    decreases n - p
  {
    if at(p).Some? then Some(p)
    else if p == n then None
    else FirstAt(at, p + 1, n)
  }

  /** Nothing is found before the position FirstAt returns, nor anywhere
      when it returns nothing. */
  lemma {:induction false} FirstAtIsFirst<T>(at: nat --> Option<T>, p: nat, n: nat)
    requires p <= n && forall q | p <= q <= n :: at.requires(q)
    ensures var i := FirstAt(at, p, n);
      forall q | p <= q <= n && (i.None? || q < i.value) :: at(q).None?
    decreases n - p
  {
    if at(p).None? && p < n {
      FirstAtIsFirst(at, p + 1, n);
    }
  }

  /** A position where `at` yields something, with nothing before it, is
      the one FirstAt returns. */
  lemma {:induction false} FirstAtFindsFirst<T>(at: nat --> Option<T>, p: nat, a: nat, n: nat)
    requires p <= a <= n && forall q | p <= q <= n :: at.requires(q)
    requires at(a).Some? && forall q | p <= q < a :: at(q).None?
    ensures FirstAt(at, p, n) == Some(a)
    decreases a - p
  {
    if p < a {
      FirstAtFindsFirst(at, p + 1, a, n);
    }
  }

  /** Trying the expression at each position of s. */
  function Matcher(s: string): (at: nat --> Option<Groups>)
    ensures forall q: nat | q <= |s| :: at.requires(q) && at(q) == MatchAt(s, q)
  {
    (q: nat) requires q <= |s| => MatchAt(s, q)
  }

  /** The leftmost match at or after position p, as `String.prototype.match`
      returns it. */
  function FindFrom(s: string, p: nat): (m: Option<Groups>)
    requires p <= |s|
    ensures m.Some? ==> p <= m.value.start <= |s| && MatchAt(s, m.value.start) == m
  {
    var i := FirstAt(Matcher(s), p, |s|);
    if i.Some? then Matcher(s)(i.value) else None
  }

  /** FindFrom finds a match exactly when there is one, and the one it finds
      is the leftmost. */
  lemma FindFromIsLeftmost(s: string, p: nat)
    requires p <= |s|
    ensures var m := FindFrom(s, p);
      && (m.Some? ==> forall q | p <= q < m.value.start :: MatchAt(s, q).None?)
      && (m.None? ==> forall q | p <= q <= |s| :: MatchAt(s, q).None?)
  {
    var at := Matcher(s);
    FirstAtIsFirst(at, p, |s|);
    var i := FirstAt(at, p, |s|);
    assert i.Some? ==> FindFrom(s, p) == at(i.value);
    forall q | p <= q <= |s| && (i.None? || q < i.value)
      ensures MatchAt(s, q).None?
    {
      assert at(q).None?;
    }
  }

  /** 10 to the power k. */
  function Pow10(k: nat): (p: nat)
    ensures 1 <= p
  {
    if k == 0 then 1 else 10 * Pow10(k - 1)
  }

  /** The numeric value of a string of decimal digits (`parseInt(d, 10)`). */
  function Decimal(ds: string): (n: nat)
    requires AllIn(ds, 0, |ds|, IsDigit)
    ensures n < Pow10(|ds|)
    ensures 0 < |ds| && ds[0] != '0' ==> Pow10(|ds| - 1) <= n
    decreases |ds|
  {
    if |ds| == 0 then 0
    else Decimal(ds[..|ds| - 1]) * 10 + ((ds[|ds| - 1] as int) - ('0' as int))
  }

  /** The three groups of a match, read as decimal numbers. */
  function GroupValues(s: string, g: Groups): (c: Rgb)
    requires MatchesWith(s, g)
    ensures Canonical(s[g.start..g.end1]) ==> DecimalString(c.r) == s[g.start..g.end1]
    ensures Canonical(s[g.start2..g.end2]) ==> DecimalString(c.g) == s[g.start2..g.end2]
    ensures Canonical(s[g.start3..g.end3]) ==> DecimalString(c.b) == s[g.start3..g.end3]
  {
    SliceAllIn(s, g.start, g.end1, IsDigit);
    SliceAllIn(s, g.start2, g.end2, IsDigit);
    SliceAllIn(s, g.start3, g.end3, IsDigit);
    var r, gr, b := s[g.start..g.end1], s[g.start2..g.end2], s[g.start3..g.end3];
    assert Canonical(r) ==> DecimalString(Decimal(r)) == r by { if Canonical(r) { CanonicalReadsBack(r); } }
    assert Canonical(gr) ==> DecimalString(Decimal(gr)) == gr by { if Canonical(gr) { CanonicalReadsBack(gr); } }
    assert Canonical(b) ==> DecimalString(Decimal(b)) == b by { if Canonical(b) { CanonicalReadsBack(b); } }
    Rgb(Decimal(r), Decimal(gr), Decimal(b))
  }

  /** The colour read from a computed colour string: the three groups of the
      leftmost match, or black when the expression matches nowhere. */
  function ComputedToRgb(computed: string): (c: Rgb)
    ensures (forall q | 0 <= q <= |computed| :: MatchAt(computed, q).None?) ==> c == Rgb(0, 0, 0)
  {
    match FindFrom(computed, 0)
    case None => Rgb(0, 0, 0)
    case Some(g) =>
      MatchAtSound(computed, g.start);
      GroupValues(computed, g)
  }

  /** A string with no digit in it yields black. */
  lemma NoDigitsGiveBlack(s: string)
    requires forall k | 0 <= k < |s| :: !IsDigit(s[k])
    ensures ComputedToRgb(s) == Rgb(0, 0, 0)
  {
    forall q | 0 <= q <= |s|
      ensures MatchAt(s, q).None?
    {
      assert Span(s, q, IsDigit) == 0;
    }
  }

  /** The decimal digit for 0 <= d < 10. */
  function DigitChar(d: int): (c: char)
    requires 0 <= d < 10
    ensures IsDigit(c) && (c as int) - ('0' as int) == d
  {
    (('0' as int) + d) as char
  }

  /** The shortest decimal notation of n, as a browser writes it into a
      computed colour string. */
  function DecimalString(n: nat): (ds: string)
    ensures 0 < |ds| && AllIn(ds, 0, |ds|, IsDigit)
    ensures Decimal(ds) == n
    ensures |ds| == 1 || ds[0] != '0'
  {
    if n < 10 then [DigitChar(n)]
    else
      var front := DecimalString(n / 10);
      var ds := front + [DigitChar(n % 10)];
      assert ds[..|ds| - 1] == front;
      ds
  }

  /** A digit string in the browser's notation: no leading zero except the
      single digit 0. */
  predicate Canonical(ds: string) {
    0 < |ds| && AllIn(ds, 0, |ds|, IsDigit) && (|ds| == 1 || ds[0] != '0')
  }

  /** `parseInt` and the browser's notation are inverse on canonical digit
      strings: writing the number read gives the same digits back. */
  lemma {:induction false} CanonicalReadsBack(ds: string)
    requires Canonical(ds)
    ensures DecimalString(Decimal(ds)) == ds
    decreases |ds|
  {
    var n := Decimal(ds);
    var last := ds[|ds| - 1];
    if |ds| == 1 {
      assert n == (last as int) - ('0' as int);
      assert [DigitChar(n)] == ds;
    } else {
      var front := ds[..|ds| - 1];
      assert front[0] == ds[0];
      assert AllIn(front, 0, |front|, IsDigit);
      CanonicalReadsBack(front);
      assert 10 <= n;
      assert n / 10 == Decimal(front) && n % 10 == (last as int) - ('0' as int);
      assert DigitChar(n % 10) == last;
      assert DecimalString(n) == DecimalString(n / 10) + [DigitChar(n % 10)];
      assert ds == front + [last];
    }
  }

  /** The three numbers as a browser separates them in a computed colour. */
  function TripleString(r: nat, g: nat, b: nat): string {
    DecimalString(r) + ", " + DecimalString(g) + ", " + DecimalString(b)
  }

  /** A colour written as "<prefix>r, g, b<suffix>", where the prefix holds no
      digit and the suffix does not start with one, reads back as (r, g, b). */
  lemma ReadsFirstTriple(prefix: string, r: nat, g: nat, b: nat, suffix: string)
    requires forall k | 0 <= k < |prefix| :: !IsDigit(prefix[k])
    requires |suffix| == 0 || !IsDigit(suffix[0])
    ensures ComputedToRgb(prefix + TripleString(r, g, b) + suffix) == Rgb(r, g, b)
  {
    var dr, dg, db := DecimalString(r), DecimalString(g), DecimalString(b);
    var s := prefix + TripleString(r, g, b) + suffix;
    assert s == prefix + dr + ", " + dg + ", " + db + suffix;
    var grp := TripleLayout(prefix, dr, dg, db, suffix);
    MatchAtComplete(s, grp);
    MatchAtSound(s, grp.start);
    var m := MatchAt(s, grp.start).value;
    assert m == grp;
    FirstMatchAfterPrefix(s, |prefix|);
  }

  /** Where the groups of "<prefix>dr, dg, db<suffix>" lie. */
  lemma TripleLayout(prefix: string, dr: string, dg: string, db: string, suffix: string) returns (grp: Groups)
    requires 0 < |dr| && 0 < |dg| && 0 < |db|
    requires AllIn(dr, 0, |dr|, IsDigit) && AllIn(dg, 0, |dg|, IsDigit) && AllIn(db, 0, |db|, IsDigit)
    requires |suffix| == 0 || !IsDigit(suffix[0])
    ensures var s := prefix + dr + ", " + dg + ", " + db + suffix;
      && grp.start == |prefix|
      && MatchesWith(s, grp)
      && (grp.end3 == |s| || !IsDigit(s[grp.end3]))
      && s[grp.start..grp.end1] == dr
      && s[grp.start2..grp.end2] == dg
      && s[grp.start3..grp.end3] == db
  {
    var s := prefix + dr + ", " + dg + ", " + db + suffix;
    grp := TriplePieces(prefix, dr, dg, db, suffix);
    AllInSlice(s, grp.start, grp.end1, IsDigit);
    AllInSlice(s, grp.start2, grp.end2, IsDigit);
    AllInSlice(s, grp.start3, grp.end3, IsDigit);
    assert IsSpace(s[grp.end1 + 1]) && IsSpace(s[grp.end2 + 1]);
  }

  /** The pieces of "<prefix>dr, dg, db<suffix>" and the characters between
      them. */
  lemma TriplePieces(prefix: string, dr: string, dg: string, db: string, suffix: string) returns (grp: Groups)
    requires 0 < |dr| && 0 < |dg| && 0 < |db|
    ensures var s := prefix + dr + ", " + dg + ", " + db + suffix;
      && grp == Groups(|prefix|, |prefix| + |dr|, |prefix| + |dr| + 2, |prefix| + |dr| + 2 + |dg|,
                       |prefix| + |dr| + 4 + |dg|, |prefix| + |dr| + 4 + |dg| + |db|)
      && grp.end3 <= |s|
      && s[grp.start..grp.end1] == dr
      && s[grp.start2..grp.end2] == dg
      && s[grp.start3..grp.end3] == db
      && s[grp.end1] == ',' && s[grp.end1 + 1] == ' '
      && s[grp.end2] == ',' && s[grp.end2 + 1] == ' '
      && s[grp.end3..] == suffix
  {
    var s := prefix + dr + ", " + dg + ", " + db + suffix;
    var a := |prefix|;
    grp := Groups(a, a + |dr|, a + |dr| + 2, a + |dr| + 2 + |dg|,
                  a + |dr| + 4 + |dg|, a + |dr| + 4 + |dg| + |db|);
    assert s[grp.start..grp.end1] == dr;
    assert s[grp.start2..grp.end2] == dg;
    assert s[grp.start3..grp.end3] == db;
    assert s[grp.end3..] == suffix;
  }

  /** When no character before position a is a digit, the leftmost match is
      the one at a, if there is one there. */
  lemma FirstMatchAfterPrefix(s: string, a: nat)
    requires a <= |s| && MatchAt(s, a).Some?
    requires forall q | 0 <= q < a :: !IsDigit(s[q])
    ensures FindFrom(s, 0) == MatchAt(s, a)
  {
    var at := Matcher(s);
    forall q | 0 <= q < a
      ensures at(q).None?
    {
      assert DigitsFrom(s, q).None?;
    }
    FirstAtFindsFirst(at, 0, a, |s|);
  }

  /** A property of every character of a slice is one of the characters of
      the underlying string. */
  lemma AllInSlice(s: string, lo: int, hi: int, f: char -> bool)
    requires 0 <= lo <= hi <= |s|
    requires AllIn(s[lo..hi], 0, hi - lo, f)
    ensures AllIn(s, lo, hi, f)
  {
    forall k | lo <= k < hi
      ensures f(s[k])
    {
      assert s[k] == s[lo..hi][k - lo];
    }
  }

  /** The converse: a property of a stretch of s holds of that slice. */
  lemma SliceAllIn(s: string, lo: int, hi: int, f: char -> bool)
    requires AllIn(s, lo, hi, f)
    ensures AllIn(s[lo..hi], 0, hi - lo, f)
  {
  }

  /** The plain format a browser reports for a computed colour reads back
      exactly. */
  lemma RgbRoundTrip(r: nat, g: nat, b: nat)
    ensures ComputedToRgb("rgb(" + TripleString(r, g, b) + ")") == Rgb(r, g, b)
  {
    ReadsFirstTriple("rgb(", r, g, b, ")");
  }

  /** So does the translucent format: its alpha comes after the three
      channels and is never read. */
  lemma RgbaRoundTrip(r: nat, g: nat, b: nat)
    ensures ComputedToRgb("rgba(" + TripleString(r, g, b) + ", 0.5)") == Rgb(r, g, b)
  {
    ReadsFirstTriple("rgba(", r, g, b, ", 0.5)");
  }
}

=== FILE: compositor.dfy ===
/** The CRT compositor of `renderRetro`: every output pixel is computed from
    the low-resolution glyph buffer by nearest-neighbour sampling with
    red/blue column offsets, an alpha threshold choosing background or glyph,
    a clamped additive blend scaled by the frame's flicker, and an RGB stripe
    mask; then every third row is chosen for a scanline. */
module Compositor {
  import opened Wrappers
  import opened PixelIndex
  import opened RetroOptions
  import opened ColorParse

  /** One element of a Uint8ClampedArray. */
  type byte = v: int | 0 <= v < 256

  /** A colour with exact real channels. */
  datatype Color = Color(r: real, g: real, b: real)

  /** One output pixel: four consecutive elements of the image data. */
  datatype Rgba = Rgba(r: real, g: real, b: real, a: real)

  predicate InByteRange(c: Color) {
    0.0 <= c.r <= 255.0 && 0.0 <= c.g <= 255.0 && 0.0 <= c.b <= 255.0
  }

  function ToColor(c: Rgb): Color {
    Color(c.r as real, c.g as real, c.b as real)
  }

  /** `clamp(v, lo, hi) = Math.max(lo, Math.min(hi, v))` on integers. */
  function Clamp(v: int, lo: int, hi: int): (c: int)
    ensures lo <= hi ==> lo <= c <= hi
    ensures lo <= v <= hi ==> c == v
    ensures v < lo ==> c == lo
    ensures lo <= hi < v ==> c == hi
  {
    var m := if v < hi then v else hi;
    if m < lo then lo else m
  }

  /** The same clamp on exact channel values: the blend works on reals, the
      sample columns on integers, and Dafny keeps the two types apart. */
  function ClampReal(v: real, lo: real, hi: real): (c: real)
    ensures lo <= hi ==> lo <= c <= hi
    ensures lo <= v <= hi ==> c == v
    ensures v < lo ==> c == lo
    ensures lo <= hi < v ==> c == hi
  {
    var m := if v < hi then v else hi;
    if m < lo then lo else m
  }

  /** The low-resolution coordinates one output pixel reads: the block
      (sx, sy) it lies in, and the red and blue columns shifted `off` blocks
      left and right and clamped to the buffer. Green is read at sx itself,
      which is NOT clamped. */
  datatype Sample = Sample(sx: int, sy: int, rx: int, bx: int)

  function SampleAt(x: nat, y: nat, ps: int, lowW: int, off: int): (s: Sample)
    requires 1 <= ps && 1 <= lowW && 0 <= off
    ensures s.sx == Downsample(x, ps) && s.sy == Downsample(y, ps)
    ensures 0 <= s.rx < lowW && 0 <= s.bx < lowW
    ensures s.rx <= s.sx
    ensures s.sx < lowW ==> s.sx <= s.bx
    ensures 0 <= s.sx - off < lowW ==> s.rx == s.sx - off
    ensures s.sx + off < lowW ==> s.bx == s.sx + off
    ensures off == 0 && s.sx < lowW ==> s.rx == s.sx && s.bx == s.sx
    ensures s.sx - off < 0 ==> s.rx == 0
    ensures lowW <= s.sx - off ==> s.rx == lowW - 1
    ensures lowW <= s.sx + off ==> s.bx == lowW - 1
  {
    var sx := Downsample(x, ps);
    Sample(sx, Downsample(y, ps), Clamp(sx - off, 0, lowW - 1), Clamp(sx + off, 0, lowW - 1))
  }

  /** A typed-array read: `undefined` (None) outside the buffer. */
  function ByteAt(src: seq<byte>, i: int): (a: Option<byte>)
    ensures a.Some? <==> 0 <= i < |src|
    ensures a.Some? ==> a.value == src[i]
  {
    if 0 <= i < |src| then Some(src[i]) else None
  }

  /** The glyph test `s[base + 3] / 255 > 0.01`; `undefined / 255` is NaN,
      which fails every comparison. */
  predicate Covered(a: Option<byte>): (c: bool)
    ensures c <==> a.Some? && 3 <= a.value
  {
    a.Some? && (a.value as real) / 255.0 > 0.01
  }

  /** The threshold passes exactly the alpha bytes 3 and above. */
  lemma CoveredIffAlphaAtLeastThree(v: byte)
    ensures Covered(Some(v)) <==> 3 <= v
  {
  }

  /** A glyph buffer as `getImageData(0, 0, lowW, lowH)` returns it. */
  predicate ValidLowRes(src: seq<byte>, lowW: int, lowH: int) {
    1 <= lowW && 1 <= lowH && |src| == lowW * lowH * 4
  }

  /** A covered alpha byte lies inside the buffer, so the block's row is a
      real row and every clamped column of that row can be read. */
  lemma CoveredReadIsInside(src: seq<byte>, lowW: int, lowH: int, sx: int, sy: int)
    requires ValidLowRes(src, lowW, lowH) && 0 <= sx && 0 <= sy
    requires Covered(ByteAt(src, Idx(sx, sy, lowW) + 3))
    ensures sy < lowH
    ensures forall c | 0 <= c < lowW :: Idx(c, sy, lowW) + 3 < |src|
  {
    if lowH <= sy {
      MulMono(lowH, sy, lowW);
      assert false;
    }
    forall c | 0 <= c < lowW
      ensures Idx(c, sy, lowW) + 3 < |src|
    {
      IdxInBounds(c, sy, lowW, lowH);
    }
  }

  /** Additive blend of one glyph channel onto the background:
      `clamp(bg + v * flick * 0.85, 0, 255)`. */
  function Blend(bg: real, v: byte, flick: real): (c: real)
    ensures 0.0 <= c <= 255.0
    ensures 0.0 <= bg <= 255.0 && 0.0 <= flick ==> bg <= c
    ensures 0.0 <= bg <= 255.0 && v == 0 ==> c == bg
    ensures 0.0 <= bg + v as real * flick * 0.85 <= 255.0 ==> c == bg + v as real * flick * 0.85
    ensures 255.0 < bg + v as real * flick * 0.85 ==> c == 255.0
    ensures bg + v as real * flick * 0.85 < 0.0 ==> c == 0.0
  {
    if 0.0 <= flick then RealMulNonneg(v as real, flick); ClampReal(bg + v as real * flick * 0.85, 0.0, 255.0)
    else ClampReal(bg + v as real * flick * 0.85, 0.0, 255.0)
  }

  /** A brighter glyph channel never gives a darker blend. */
  lemma BlendIsMonotone(bg: real, v: byte, v': byte, flick: real)
    requires v <= v' && 0.0 <= flick
    ensures Blend(bg, v, flick) <= Blend(bg, v', flick)
  {
    RealMulNonneg((v' - v) as real, flick);
    assert v' as real * flick * 0.85 - v as real * flick * 0.85 == (v' - v) as real * flick * 0.85;
  }

  /** Channel k of a colour: 0 is red, 1 green, 2 blue. */
  function Channel(c: Color, k: int): real
    requires 0 <= k < 3
  {
    if k == 0 then c.r else if k == 1 then c.g else c.b
  }

  /** 0 <= v <= 255 scaled by a factor in [0, 1] stays in [0, 255]. */
  lemma ScaleStaysInByteRange(v: real, f: real)
    requires 0.0 <= v <= 255.0 && 0.0 <= f <= 1.0
    ensures 0.0 <= v * f <= 255.0
  {
    RealMulNonneg(v, f);
    RealMulNonneg(v, 1.0 - f);
  }

  /** The RGB stripe mask: column x shows the phosphor `x % 3` (0 red,
      1 green, 2 blue) and dims the other two channels by `1 - m`. */
  function Mask(x: nat, c: Color, m: real): (masked: Color)
    ensures forall k | 0 <= k < 3 ::
      Channel(masked, k) == if k == x % 3 then Channel(c, k) else Channel(c, k) * (1.0 - m)
    ensures m == 0.0 ==> masked == c
  {
    var keep := 1.0 - m;
    var stripe := x % 3;
    var masked :=
      if stripe == 0 then Color(c.r, c.g * keep, c.b * keep)
      else if stripe == 1 then Color(c.r * keep, c.g, c.b * keep)
      else Color(c.r * keep, c.g * keep, c.b);
    masked
  }

  /** With a mask strength in [0, 1] the mask keeps channels in [0, 255]. */
  lemma MaskKeepsByteRange(x: nat, c: Color, m: real)
    requires 0.0 <= m <= 1.0 && InByteRange(c)
    ensures InByteRange(Mask(x, c, m))
  {
    ScaleStaysInByteRange(c.r, 1.0 - m);
    ScaleStaysInByteRange(c.g, 1.0 - m);
    ScaleStaysInByteRange(c.b, 1.0 - m);
  }

  function Background(bg: Color): Rgba {
    Rgba(bg.r, bg.g, bg.b, 255.0)
  }

  /** What stays fixed across one frame's pixel loop: the glyph buffer and
      its size, the pixel scale, the channel offset in blocks, the flicker
      multiplier, the mask strength and the background colour. */
  datatype Setup = Setup(src: seq<byte>, lowW: int, lowH: int, ps: int, off: int,
                         flick: real, mask: real, bg: Color)
  {
    predicate Valid() {
      1 <= ps && 0 <= off && ValidLowRes(src, lowW, lowH)
    }
  }

  /** The alpha read of output pixel (x, y): byte 3 of block (sx, sy). */
  function AlphaRead(st: Setup, x: nat, y: nat): (a: Option<byte>)
    requires st.Valid()
    ensures st.lowH <= Downsample(y, st.ps) ==> a.None?
    ensures Downsample(x, st.ps) < st.lowW && Downsample(y, st.ps) < st.lowH
      ==> a == Some(BlockByte(st, Downsample(x, st.ps), Downsample(y, st.ps), 3))
  {
    var sx, sy := Downsample(x, st.ps), Downsample(y, st.ps);
    var a := ByteAt(st.src, Idx(sx, sy, st.lowW) + 3);
    if st.lowH <= sy then MulMono(st.lowH, sy, st.lowW); a
    else if sx < st.lowW then IdxInBounds(sx, sy, st.lowW, st.lowH); a
    else a
  }

  /** One output pixel of the compositor loop: the background unless the
      block's alpha passes the threshold. */
  function Pixel(st: Setup, x: nat, y: nat): (p: Rgba)
    requires st.Valid()
    ensures p.a == 255.0
    ensures !Covered(AlphaRead(st, x, y)) ==> p == Background(st.bg)
    ensures 0.0 <= st.mask <= 1.0 && InByteRange(st.bg) ==> InByteRange(Color(p.r, p.g, p.b))
  {
    if Covered(AlphaRead(st, x, y)) then Glyph(st, x, y) else Background(st.bg)
  }

  /** A pixel over a glyph: each channel read from its own column of the
      block's row, blended onto the background, then stripe-masked. */
  function Glyph(st: Setup, x: nat, y: nat): (p: Rgba)
    requires st.Valid() && Covered(AlphaRead(st, x, y))
    ensures p.a == 255.0
    ensures 0.0 <= st.mask <= 1.0 && InByteRange(st.bg) ==> InByteRange(Color(p.r, p.g, p.b))
  {
    var s := SampleAt(x, y, st.ps, st.lowW, st.off);
    CoveredReadIsInside(st.src, st.lowW, st.lowH, s.sx, s.sy);
    var blended := Blended(st, s);
    var c := Mask(x, blended, st.mask);
    if 0.0 <= st.mask <= 1.0 then MaskKeepsByteRange(x, blended, st.mask); Rgba(c.r, c.g, c.b, 255.0)
    else Rgba(c.r, c.g, c.b, 255.0)
  }

  /** The three blended channels of a sample: red from column rx, green from
      byte 1 of the block (sx, sy) itself, blue from column bx. */
  function Blended(st: Setup, s: Sample): (c: Color)
    requires st.Valid() && 0 <= s.sx && 0 <= s.sy < st.lowH
    requires 0 <= s.rx < st.lowW && 0 <= s.bx < st.lowW
    requires Idx(s.sx, s.sy, st.lowW) + 3 < |st.src|
    ensures InByteRange(c)
  {
    IdxInBounds(s.rx, s.sy, st.lowW, st.lowH);
    IdxInBounds(s.bx, s.sy, st.lowW, st.lowH);
    Color(Blend(st.bg.r, st.src[Idx(s.rx, s.sy, st.lowW)], st.flick),
          Blend(st.bg.g, st.src[Idx(s.sx, s.sy, st.lowW) + 1], st.flick),
          Blend(st.bg.b, st.src[Idx(s.bx, s.sy, st.lowW) + 2], st.flick))
  }

  /** The four bytes of one pixel, in image-data order. */
  function PixelBytes(p: Rgba): seq<real> {
    [p.r, p.g, p.b, p.a]
  }

  /** The pixel stored at byte offset i of an image buffer, if all four of
      its bytes are there. */
  function Quad(d: seq<real>, i: int): (p: Option<Rgba>)
    ensures p.Some? <==> 0 <= i && i + 4 <= |d|
  {
    if 0 <= i && i + 4 <= |d| then Some(Rgba(d[i], d[i + 1], d[i + 2], d[i + 3])) else None
  }

  /** The pixel loop: for y in 0..h, x in 0..w, the four bytes at
      `idx(x, y, w)` receive the pixel computed for (x, y). */
  method RenderPixels(st: Setup, w: nat, h: nat) returns (out: seq<real>)
    requires st.Valid()
    ensures |out| == w * h * 4
    ensures forall x, y | 0 <= x < w && 0 <= y < h :: Quad(out, Idx(x, y, w)) == Some(Pixel(st, x, y))
  {
    out := FillImage((x: nat, y: nat) requires st.Valid() => Pixel(st, x, y), w, h);
  }

  /** The loop nest of the compositor, for any per-pixel computation: the
      buffer is built in the loop's order, so each pixel's four bytes are
      written exactly once, at `idx(x, y, w)`. */
  method FillImage(px: (nat, nat) --> Rgba, w: nat, h: nat) returns (out: seq<real>)
    requires forall x: nat, y: nat :: px.requires(x, y)
    ensures |out| == w * h * 4
    ensures forall x, y | 0 <= x < w && 0 <= y < h :: Quad(out, Idx(x, y, w)) == Some(px(x, y))
  {
    out := [];
    var y := 0;
    while y < h
      invariant 0 <= y <= h
      invariant |out| == Idx(0, y, w)
      invariant forall x, y' | 0 <= x < w && 0 <= y' < y :: Quad(out, Idx(x, y', w)) == Some(px(x, y'))
    {
      out := FillRow(px, w, y, out);
      y := y + 1;
    }
  }

  /** One iteration of the outer loop: appends row y, leaving the rows
      already written as they were. */
  method FillRow(px: (nat, nat) --> Rgba, w: nat, y: nat, done: seq<real>) returns (out: seq<real>)
    requires forall x: nat, y: nat :: px.requires(x, y)
    requires |done| == Idx(0, y, w)
    requires forall x, y' | 0 <= x < w && 0 <= y' < y :: Quad(done, Idx(x, y', w)) == Some(px(x, y'))
    ensures |out| == Idx(0, y + 1, w)
    ensures forall x, y' | 0 <= x < w && 0 <= y' <= y :: Quad(out, Idx(x, y', w)) == Some(px(x, y'))
  {
    var row: seq<real> := [];
    var x := 0;
    while x < w
      invariant 0 <= x <= w
      invariant |row| == x * 4
      invariant forall x' | 0 <= x' < x :: Quad(row, x' * 4) == Some(px(x', y))
    {
      var bytes := PixelBytes(px(x, y));
      forall x' | 0 <= x' < x
        ensures Quad(row + bytes, x' * 4) == Quad(row, x' * 4)
      {
        QuadStable(row, bytes, x' * 4);
      }
      QuadOfAppended(row, px(x, y));
      row := row + bytes;
      x := x + 1;
    }
    out := done + row;
    forall x', y' | 0 <= x' < w && 0 <= y' <= y
      ensures Quad(out, Idx(x', y', w)) == Some(px(x', y'))
    {
      if y' < y {
        IdxOrdered(x', y', 0, y, w);
        QuadStable(done, row, Idx(x', y', w));
      } else {
        QuadShift(done, row, x' * 4);
      }
    }
  }

  /** A pixel of the appended part is found |d| bytes further on. */
  lemma QuadShift(d: seq<real>, extra: seq<real>, i: int)
    requires 0 <= i
    ensures Quad(d + extra, |d| + i) == Quad(extra, i)
  {
  }

  /** Appending leaves the pixels already stored unchanged. */
  lemma QuadStable(d: seq<real>, extra: seq<real>, i: int)
    requires 0 <= i && i + 4 <= |d|
    ensures Quad(d + extra, i) == Quad(d, i)
  {
  }

  /** The appended pixel is stored at the old end of the buffer. */
  lemma QuadOfAppended(d: seq<real>, p: Rgba)
    ensures Quad(d + PixelBytes(p), |d|) == Some(p)
  {
  }

  /** The rows `fillRect(0, y, w, 1)` darkens: every third row from the top,
      and none when the scanline strength is not positive. */
  method ScanlineRows(h: nat, alpha: real) returns (rows: seq<nat>)
    ensures forall y: int :: y in rows <==> (0.0 < alpha && 0 <= y < h && y % 3 == 0)
    ensures forall i, j | 0 <= i < j < |rows| :: rows[i] < rows[j]
  {
    rows := [];
    if 0.0 < alpha {
      var y := 0;
      while y < h
        invariant y % 3 == 0
        invariant forall z: int :: z in rows <==> (0 <= z < y && z < h && z % 3 == 0)
        invariant forall i | 0 <= i < |rows| :: rows[i] < y
        invariant forall i, j | 0 <= i < j < |rows| :: rows[i] < rows[j]
      {
        rows := rows + [y];
        y := y + 3;
      }
    }
  }

  /** One rendered frame: the image data and the scanline rows drawn over it. */
  datatype Frame = Frame(pixels: seq<real>, scanlines: seq<nat>)

  /** The per-frame constants `renderRetro` derives from its arguments. */
  function FrameSetup(w: nat, h: nat, dpr: real, o: Options, bg: Rgb, src: seq<byte>, u: real): (st: Setup)
    requires 1 <= o.pixelScale
    ensures st.src == src && st.ps == o.pixelScale && st.mask == o.maskAlpha && st.bg == ToColor(bg)
    ensures st.lowW == LowSize(w, o.pixelScale) && st.lowH == LowSize(h, o.pixelScale)
    ensures st.off == RgbOffLow(o.rgbOffset, dpr, o.pixelScale)
    ensures 0.0 <= u < 1.0 ==> st.flick == Flick(u, o.flicker)
    ensures |src| == st.lowW * st.lowH * 4 <==> st.Valid()
    ensures 0.0 <= u < 1.0 && 0.0 <= o.flicker ==> 1.0 - o.flicker <= st.flick <= 1.0 + o.flicker
  {
    Setup(src, LowSize(w, o.pixelScale), LowSize(h, o.pixelScale), o.pixelScale,
          RgbOffLow(o.rgbOffset, dpr, o.pixelScale), if 0.0 <= u < 1.0 then Flick(u, o.flicker) else 1.0,
          o.maskAlpha, ToColor(bg))
  }

  /** `renderRetro` on a w x h canvas. The browser's computed form of the
      background colour, the glyph buffer the rasterizer produced and the
      frame's uniform draw `u` are inputs. */
  method RenderRetro(w: nat, h: nat, dpr: real, p: Overrides, computedBackground: string,
                     src: seq<byte>, u: real)
    returns (f: Frame)
    requires 1 <= w && 1 <= h
    requires 1 <= WithDefaults(p).pixelScale
    requires |src| == LowSize(w, WithDefaults(p).pixelScale) * LowSize(h, WithDefaults(p).pixelScale) * 4
    requires 0.0 <= u < 1.0
    ensures |f.pixels| == w * h * 4
    ensures var st := FrameSetup(w, h, dpr, WithDefaults(p), ComputedToRgb(computedBackground), src, u);
      && st.Valid()
      && forall x, y | 0 <= x < w && 0 <= y < h :: Quad(f.pixels, Idx(x, y, w)) == Some(Pixel(st, x, y))
    ensures forall y: int :: y in f.scanlines <==> (0.0 < WithDefaults(p).scanlineAlpha && 0 <= y < h && y % 3 == 0)
  {
    var o := WithDefaults(p);
    var st := FrameSetup(w, h, dpr, o, ComputedToRgb(computedBackground), src, u);
    var pixels := RenderPixels(st, w, h);
    var rows := ScanlineRows(h, o.scanlineAlpha);
    f := Frame(pixels, rows);
  }

  // ---------------------------------------------------------------------
  // Sampling geometry, including the unclamped green/alpha column.
  // ---------------------------------------------------------------------

  /** The block column of an in-range output column is at most lowW; it
      reaches lowW only when the width is not a multiple of the scale. */
  lemma SampleColumnAtMostLowW(x: nat, w: nat, ps: int)
    requires 1 <= ps && x < w
    ensures Downsample(x, ps) <= LowSize(w, ps)
    ensures Downsample(x, ps) == LowSize(w, ps) ==> ps <= w && w % ps != 0
  {
    var s, low := Downsample(x, ps), LowSize(w, ps);
    if ps <= w {
      if low < s {
        MulMono(low + 1, s, ps);
      }
    } else {
      assert s == 0;
    }
  }

  /** Conversely, when the width is not a multiple of the scale (and at least
      one block wide), the last output column samples block column lowW,
      one past the last column of the glyph buffer. */
  lemma LastColumnSamplesPastRow(w: nat, ps: int)
    requires 1 <= ps <= w && w % ps != 0
    ensures Downsample(w - 1, ps) == LowSize(w, ps)
  {
    var low := LowSize(w, ps);
    assert low * ps < w;
    assert low * ps <= w - 1;
    var s := Downsample(w - 1, ps);
    if s < low {
      MulMono(s + 1, low, ps);
    } else if low < s {
      MulMono(low + 1, s, ps);
    }
  }

  /** When both sides are multiples of the scale, every output pixel samples
      a block inside the glyph buffer and its alpha read is defined. */
  lemma MultiplesSampleInside(st: Setup, x: nat, y: nat, w: nat, h: nat)
    requires st.Valid() && x < w && y < h
    requires w % st.ps == 0 && h % st.ps == 0
    requires st.lowW == LowSize(w, st.ps) && st.lowH == LowSize(h, st.ps)
    ensures Downsample(x, st.ps) < st.lowW && Downsample(y, st.ps) < st.lowH
    ensures AlphaRead(st, x, y).Some?
  {
    SampleColumnAtMostLowW(x, w, st.ps);
    SampleColumnAtMostLowW(y, h, st.ps);
    IdxInBounds(Downsample(x, st.ps), Downsample(y, st.ps), st.lowW, st.lowH);
  }

  /** Byte k of glyph block (c, row), for a block inside the buffer. */
  function BlockByte(st: Setup, c: int, row: int, k: int): byte
    requires st.Valid() && 0 <= c < st.lowW && 0 <= row < st.lowH && 0 <= k < 4
  {
    IdxInBounds(c, row, st.lowW, st.lowH);
    st.src[Idx(c, row, st.lowW) + k]
  }

  /** A pixel whose block column is lowW reads its alpha and green from the
      first block of the NEXT row: `idx(lowW, sy, lowW) == idx(0, sy + 1, lowW)`.
      Red and blue stay in its own row: red from column lowW - off (clamped
      into the row), blue from the last column. */
  lemma EdgeColumnReadsNextRow(st: Setup, x: nat, y: nat)
    requires st.Valid()
    requires Downsample(x, st.ps) == st.lowW && Downsample(y, st.ps) + 1 < st.lowH
    ensures var sy := Downsample(y, st.ps);
      AlphaRead(st, x, y) == ByteAt(st.src, Idx(0, sy + 1, st.lowW) + 3)
    ensures var sy := Downsample(y, st.ps);
      var rx := if st.off == 0 then st.lowW - 1 else if st.off <= st.lowW then st.lowW - st.off else 0;
      var c := Mask(x, Color(Blend(st.bg.r, BlockByte(st, rx, sy, 0), st.flick),
                             Blend(st.bg.g, BlockByte(st, 0, sy + 1, 1), st.flick),
                             Blend(st.bg.b, BlockByte(st, st.lowW - 1, sy, 2), st.flick)),
                    st.mask);
      Covered(AlphaRead(st, x, y)) ==> Pixel(st, x, y) == Rgba(c.r, c.g, c.b, 255.0)
  {
    var sy := Downsample(y, st.ps);
    var rx := if st.off == 0 then st.lowW - 1 else if st.off <= st.lowW then st.lowW - st.off else 0;
    var s := SampleAt(x, y, st.ps, st.lowW, st.off);
    EdgeSample(st, x, y);
    if Covered(AlphaRead(st, x, y)) {
      assert Pixel(st, x, y) == Glyph(st, x, y);
      assert Blended(st, s) == Color(Blend(st.bg.r, BlockByte(st, rx, sy, 0), st.flick),
                                     Blend(st.bg.g, BlockByte(st, 0, sy + 1, 1), st.flick),
                                     Blend(st.bg.b, BlockByte(st, st.lowW - 1, sy, 2), st.flick));
    }
  }

  /** Where the sample of an edge-column pixel points. */
  lemma EdgeSample(st: Setup, x: nat, y: nat)
    requires st.Valid()
    requires Downsample(x, st.ps) == st.lowW && Downsample(y, st.ps) + 1 < st.lowH
    ensures var sy := Downsample(y, st.ps);
      var rx := if st.off == 0 then st.lowW - 1 else if st.off <= st.lowW then st.lowW - st.off else 0;
      var s := SampleAt(x, y, st.ps, st.lowW, st.off);
      && s.sx == st.lowW && s.sy == sy && s.rx == rx && s.bx == st.lowW - 1
      && Idx(s.sx, sy, st.lowW) == Idx(0, sy + 1, st.lowW)
      && Idx(0, sy + 1, st.lowW) + 3 < |st.src|
  {
    var sy := Downsample(y, st.ps);
    IdxInBounds(0, sy + 1, st.lowW, st.lowH);
    assert (sy + 1) * st.lowW == sy * st.lowW + st.lowW;
  }

  /** A pixel whose block lies below the last glyph row, or whose block
      column is lowW on the last row, reads past the end of the glyph buffer
      (`undefined`) and is background whatever the glyphs are. */
  lemma PastEndIsBackground(st: Setup, x: nat, y: nat)
    requires st.Valid()
    requires || st.lowH <= Downsample(y, st.ps)
             || (Downsample(x, st.ps) == st.lowW && Downsample(y, st.ps) == st.lowH - 1)
    ensures AlphaRead(st, x, y).None?
    ensures Pixel(st, x, y) == Background(st.bg)
  {
    var sx, sy := Downsample(x, st.ps), Downsample(y, st.ps);
    if st.lowH <= sy {
      MulMono(st.lowH, sy, st.lowW);
    }
  }

  /** The frame setup of a 4 x 6 canvas at scale 3, with no channel offset,
      flicker or mask, on black: its glyph buffer is 1 x 2 blocks, the top
      block empty and the bottom block a lit glyph block. */
  const EdgeExample := Setup([0, 0, 0, 0, 200, 200, 200, 255], 1, 2, 3, 0, 1.0, 0.0, Color(0.0, 0.0, 0.0))

  /** In the example, output pixel (0, 0) lies in the empty top block and is
      background. */
  lemma EdgeExampleOwnBlockIsBackground()
    ensures EdgeExample.Valid() && LowSize(4, 3) == 1 && LowSize(6, 3) == 2
    ensures Pixel(EdgeExample, 0, 0) == Background(EdgeExample.bg)
  {
    assert AlphaRead(EdgeExample, 0, 0) == Some(0);
  }

  /** In the example, output column 3 is past the one block column: pixel
      (3, 0), though its own block is empty, reads the bottom block's alpha
      and green and shows a green fringe. */
  lemma EdgeExampleShowsGreenFringe()
    ensures EdgeExample.Valid() && Downsample(3, 3) == LowSize(4, 3)
    ensures Pixel(EdgeExample, 3, 0) == Rgba(0.0, 170.0, 0.0, 255.0)
  {
    var st := EdgeExample;
    assert Covered(AlphaRead(st, 3, 0)) by {
      assert AlphaRead(st, 3, 0) == Some(255);
      CoveredIffAlphaAtLeastThree(255);
    }
    assert SampleAt(3, 0, 3, 1, 0) == Sample(1, 0, 0, 0);
    EdgeExampleBlend();
    assert Mask(3, Color(0.0, 170.0, 0.0), 0.0) == Color(0.0, 170.0, 0.0);
  }

  /** The blend of the example's edge sample: red and blue from the empty top
      block, green from the lit bottom block. */
  lemma EdgeExampleBlend()
    ensures Blended(EdgeExample, Sample(1, 0, 0, 0)) == Color(0.0, 170.0, 0.0)
  {
    var c := Blended(EdgeExample, Sample(1, 0, 0, 0));
    assert c.r == 0.0 by { assert Idx(0, 0, 1) == 0; }
    assert c.g == 170.0 by { assert Idx(1, 0, 1) + 1 == 5; }
    assert c.b == 0.0 by { assert Idx(0, 0, 1) + 2 == 2; }
  }

  // ---------------------------------------------------------------------
  // Channel properties of one pixel.
  // ---------------------------------------------------------------------

  /** With no channel offset and no mask, a covered pixel whose block is
      inside the buffer takes all three channels from that same block. */
  lemma NoOffsetSamplesOneBlock(st: Setup, x: nat, y: nat)
    requires st.Valid() && st.off == 0 && st.mask == 0.0
    requires Downsample(x, st.ps) < st.lowW && Covered(AlphaRead(st, x, y))
    ensures var base := Idx(Downsample(x, st.ps), Downsample(y, st.ps), st.lowW);
      && base + 3 < |st.src|
      && Pixel(st, x, y) == Rgba(Blend(st.bg.r, st.src[base], st.flick),
                                 Blend(st.bg.g, st.src[base + 1], st.flick),
                                 Blend(st.bg.b, st.src[base + 2], st.flick), 255.0)
  {
  }

  /** A covered pixel whose block is inside the buffer is opaque and carries,
      after the mask, the blend of red from the left-shifted sample, green
      from its own block and blue from the right-shifted sample, all in the
      block's row. */
  lemma CoveredPixelChannels(st: Setup, x: nat, y: nat)
    requires st.Valid() && Downsample(x, st.ps) < st.lowW && Covered(AlphaRead(st, x, y))
    ensures var s := SampleAt(x, y, st.ps, st.lowW, st.off);
      && s.sy < st.lowH
      && var c := Mask(x, Color(Blend(st.bg.r, BlockByte(st, s.rx, s.sy, 0), st.flick),
                                Blend(st.bg.g, BlockByte(st, s.sx, s.sy, 1), st.flick),
                                Blend(st.bg.b, BlockByte(st, s.bx, s.sy, 2), st.flick)), st.mask);
         Pixel(st, x, y) == Rgba(c.r, c.g, c.b, 255.0)
  {
    var s := SampleAt(x, y, st.ps, st.lowW, st.off);
    CoveredReadIsInside(st.src, st.lowW, st.lowH, s.sx, s.sy);
    assert Pixel(st, x, y) == Glyph(st, x, y);
  }

  /** A glyph buffer with no alpha byte above 2 (the empty string rasterized)
      renders every pixel as the background. */
  lemma BlankGlyphsGiveBackground(st: Setup, x: nat, y: nat)
    requires st.Valid()
    requires forall k | 0 <= k < |st.src| && k % 4 == 3 :: st.src[k] <= 2
    ensures Pixel(st, x, y) == Background(st.bg)
  {
    var i := Idx(Downsample(x, st.ps), Downsample(y, st.ps), st.lowW) + 3;
    if 0 <= i < |st.src| {
      assert i % 4 == 3;
      CoveredIffAlphaAtLeastThree(st.src[i]);
    }
  }

  /** Output column x keeps channel x % 3 of a covered pixel at the blended
      value and dims the other two, so neighbouring columns show different
      phosphors. */
  lemma StripeKeepsOwnChannel(st: Setup, x: nat, y: nat)
    requires st.Valid() && Covered(AlphaRead(st, x, y))
    requires 0.0 <= st.mask <= 1.0 && InByteRange(st.bg) && 0.0 <= st.flick
    ensures var p := Pixel(st, x, y);
      && (x % 3 == 0 ==> st.bg.r <= p.r)
      && (x % 3 == 1 ==> st.bg.g <= p.g)
      && (x % 3 == 2 ==> st.bg.b <= p.b)
  {
  }
}

=== FILE: conversation.dfy ===
/** The terminal's conversation state and how picking a choice moves it:
    the typed text is erased, the next node's prompt is typed, and picks
    that arrive while this runs are ignored. Each list of sessions below is
    the sequence of states the component passes through, one entry per
    state update that changes the typed text or the animation flag. */
module Conversation {
  import opened Dialogue
  import opened Typewriter

  datatype Session = Session(
    nodeId: string,
    typed: string,
    userChoice: string,
    showUserArea: bool,
    animating: bool)

  const Initial := Session("start", [], [], false, false)

  /** At rest the terminal shows the whole prompt of the current node. */
  predicate AtRest(s: Session) {
    !s.animating && s.typed == GetNode(s.nodeId).prompt
  }

  /** The typed text changes by at most one character per step. */
  predicate OneKeystroke(a: string, b: string) {
    (IsPrefix(a, b) && |b| <= |a| + 1) || (IsPrefix(b, a) && |a| <= |b| + 1)
  }

  /** Placeholder under the user's name until a choice has been made. */
  function ChoiceText(userChoice: string): (t: string)
    ensures userChoice != [] ==> t == userChoice
    ensures t != []
  {
    if userChoice == [] then "Choose a response\U{2026}" else userChoice
  }

  /** `onPick(label, nextId)`: ignored while animating; otherwise records
      the choice, shows the user area, erases the typed text, moves to
      `nextId` and types that node's prompt. */
  function Pick(s: Session, caption: string, nextId: string): (trace: seq<Session>)
    ensures s.animating ==> trace == []
    ensures !s.animating ==>
      && |trace| == |s.typed| + |GetNode(nextId).prompt| + 3
      && trace[0] == s.(userChoice := caption, showUserArea := true, animating := true)
      && trace[|trace| - 1] == Session(nextId, GetNode(nextId).prompt, caption, true, false)
    ensures forall i | 0 <= i < |trace| :: trace[i].userChoice == caption && trace[i].showUserArea
    ensures forall i | 0 <= i < |trace| - 1 :: trace[i].animating
    ensures forall i | 0 < i < |trace| :: OneKeystroke(trace[i - 1].typed, trace[i].typed)
    ensures !s.animating ==> PickPhases(s, nextId, trace)
  {
    if s.animating then []
    else
      var begun := s.(userChoice := caption, showUserArea := true, animating := true);
      var prompt := GetNode(nextId).prompt;
      var erase := WithTexts(begun, UntypeStates(s.typed));
      var write := WithTexts(begun.(nodeId := nextId), TypeStates(prompt));
      var trace := [begun] + erase + write + [Session(nextId, prompt, caption, true, false)];
      PickShape(s.typed, prompt, begun, nextId, trace);
      PickErasesThenTypes(s, prompt, begun, nextId, trace);
      trace
  }

  /** The two halves of a pick's run (`untype`, then `typeTo`): up to state
      j = |s.typed| + 1 the terminal is still on the old node and its text
      is erased character by character; at j it is empty, and from there on
      the terminal is on the new node and the new prompt is typed. */
  predicate PickPhases(s: Session, nextId: string, trace: seq<Session>) {
    var j := |s.typed| + 1;
    var prompt := GetNode(nextId).prompt;
    && |trace| == j + |prompt| + 2
    && trace[j].typed == []
    && (forall i | 0 <= i < j :: trace[i].nodeId == s.nodeId && IsPrefix(trace[i].typed, s.typed))
    && (forall i | 0 < i < j :: trace[i].typed == UntypeStates(s.typed)[i - 1])
    && (forall i | j <= i < |trace| :: trace[i].nodeId == nextId && IsPrefix(trace[i].typed, prompt))
    && (forall i | j <= i <= j + |prompt| :: trace[i].typed == TypeStates(prompt)[i - j])
  }

  lemma PickErasesThenTypes(s: Session, prompt: string, begun: Session, nextId: string, trace: seq<Session>)
    requires prompt == GetNode(nextId).prompt
    requires begun == s.(userChoice := begun.userChoice, showUserArea := true, animating := true)
    requires trace == [begun] + WithTexts(begun, UntypeStates(s.typed))
      + WithTexts(begun.(nodeId := nextId), TypeStates(prompt))
      + [Session(nextId, prompt, begun.userChoice, true, false)]
    ensures PickPhases(s, nextId, trace)
  {
    var j := |s.typed| + 1;
    var erase := [begun] + WithTexts(begun, UntypeStates(s.typed));
    var write := WithTexts(begun.(nodeId := nextId), TypeStates(prompt)) + [Session(nextId, prompt, begun.userChoice, true, false)];
    assert trace == erase + write;
    EraseHalf(s, begun, erase);
    TypeHalf(prompt, begun, nextId, write);
  }

  /** The `untype` half of a pick: the old node, and prefixes of the old text. */
  lemma EraseHalf(s: Session, begun: Session, erase: seq<Session>)
    requires begun == s.(userChoice := begun.userChoice, showUserArea := true, animating := true)
    requires erase == [begun] + WithTexts(begun, UntypeStates(s.typed))
    ensures |erase| == |s.typed| + 1
    ensures forall i | 0 <= i < |erase| :: erase[i].nodeId == s.nodeId && IsPrefix(erase[i].typed, s.typed)
    ensures forall i | 0 < i < |erase| :: erase[i].typed == UntypeStates(s.typed)[i - 1]
  {
    assert IsPrefix(s.typed, s.typed);
  }

  /** The `typeTo` half of a pick: the new node, and prefixes of its prompt
      from the empty text up to the whole prompt. */
  lemma TypeHalf(prompt: string, begun: Session, nextId: string, write: seq<Session>)
    requires write == WithTexts(begun.(nodeId := nextId), TypeStates(prompt))
      + [Session(nextId, prompt, begun.userChoice, true, false)]
    ensures |write| == |prompt| + 2 && write[0].typed == []
    ensures forall i | 0 <= i < |write| :: write[i].nodeId == nextId && IsPrefix(write[i].typed, prompt)
    ensures forall i | 0 <= i <= |prompt| :: write[i].typed == TypeStates(prompt)[i]
  {
    var t := TypeStates(prompt);
    forall i | 0 <= i <= |prompt|
      ensures write[i].typed == t[i] && IsPrefix(write[i].typed, prompt)
    {
      TypedPrefix(prompt, i);
    }
    assert write[|write| - 1].typed == prompt && IsPrefix(prompt, prompt);
  }

  /** One session per typed value, everything else held fixed. */
  function WithTexts(base: Session, texts: seq<string>): (r: seq<Session>)
    ensures |r| == |texts|
    ensures forall i | 0 <= i < |r| :: r[i] == base.(typed := texts[i])
  {
    seq(|texts|, i requires 0 <= i < |texts| => base.(typed := texts[i]))
  }

  /** The shape of a pick's run, proved once for the concatenation. */
  lemma PickShape(typed: string, prompt: string, begun: Session, nextId: string, trace: seq<Session>)
    requires begun.typed == typed && begun.animating && begun.showUserArea
    requires trace == [begun] + WithTexts(begun, UntypeStates(typed))
      + WithTexts(begun.(nodeId := nextId), TypeStates(prompt))
      + [Session(nextId, prompt, begun.userChoice, true, false)]
    ensures |trace| == |typed| + |prompt| + 3
    ensures forall i | 0 <= i < |trace| :: trace[i].userChoice == begun.userChoice && trace[i].showUserArea
    ensures forall i | 0 <= i < |trace| - 1 :: trace[i].animating
    ensures forall i | 0 < i < |trace| :: OneKeystroke(trace[i - 1].typed, trace[i].typed)
  {
    PickSteps(typed, prompt, begun, nextId, trace);
  }

  lemma PickSteps(typed: string, prompt: string, begun: Session, nextId: string, trace: seq<Session>)
    requires begun.typed == typed
    requires trace == [begun] + WithTexts(begun, UntypeStates(typed))
      + WithTexts(begun.(nodeId := nextId), TypeStates(prompt))
      + [Session(nextId, prompt, begun.userChoice, true, false)]
    ensures forall i | 0 < i < |trace| :: OneKeystroke(trace[i - 1].typed, trace[i].typed)
  {
    var texts := [typed] + UntypeStates(typed) + TypeStates(prompt) + [prompt];
    assert |trace| == |texts|;
    assert forall j | 0 <= j < |trace| :: trace[j].typed == texts[j];
    TextsStep(typed, prompt, texts);
  }

  /** Erasing `typed` and then typing `prompt` moves one keystroke at a time. */
  lemma TextsStep(typed: string, prompt: string, texts: seq<string>)
    requires texts == [typed] + UntypeStates(typed) + TypeStates(prompt) + [prompt]
    ensures forall i | 0 < i < |texts| :: OneKeystroke(texts[i - 1], texts[i])
  {
    var u, t := UntypeStates(typed), TypeStates(prompt);
    var n := |typed|;
    forall i | 0 < i < |texts|
      ensures OneKeystroke(texts[i - 1], texts[i])
    {
      if i == 1 && n > 0 {
        assert texts[1] == u[0];
      } else if i <= n {
        assert texts[i] == u[i - 1] && texts[i - 1] == u[i - 2];
      } else if i == n + 1 {
        assert texts[i] == t[0];
        assert n > 0 ==> texts[i - 1] == u[n - 1];
      } else if i <= n + 1 + |prompt| {
        assert texts[i] == t[i - n - 1] && texts[i - 1] == t[i - n - 2];
      } else {
        assert texts[i - 1] == t[|prompt|];
      }
    }
  }

  /** The last state of a non-empty run. */
  function Last(trace: seq<Session>): Session
    requires trace != []
  {
    trace[|trace| - 1]
  }

  /** Every state a pick passes through before it finishes ignores further
      picks, so two picks never interleave. */
  lemma PicksDoNotInterleave(s: Session, caption: string, nextId: string, i: nat, caption2: string, nextId2: string)
    requires i < |Pick(s, caption, nextId)| - 1
    ensures Pick(Pick(s, caption, nextId)[i], caption2, nextId2) == []
  {
  }

  /** A pick from a resting terminal ends at rest on the chosen node, so the
      text on screen is always the prompt of the node whose choices are
      offered. */
  lemma {:induction false} PickEndsAtRest(s: Session, c: Choice)
    requires AtRest(s)
    requires c in GetNode(s.nodeId).options
    ensures var trace := Pick(s, c.caption, c.nextId);
      && trace != [] && AtRest(Last(trace))
      && Last(trace).nodeId == c.nextId
      && GetNode(Last(trace).nodeId).id == c.nextId
      && Last(trace).typed == GetNode(c.nextId).prompt
  {
    EveryChoiceLeadsToANode(GetNode(s.nodeId), c);
  }

  /** Entering the terminal phase: after the delay the current node's prompt
      is typed and then the user area is shown. Nothing checks for an
      animation already running. */
  function EnterTerminal(s: Session): (trace: seq<Session>)
    ensures |trace| == |GetNode(s.nodeId).prompt| + 2
    ensures forall i | 0 <= i < |trace| - 1 :: trace[i].animating && trace[i].nodeId == s.nodeId
    ensures Last(trace) == s.(typed := GetNode(s.nodeId).prompt, showUserArea := true, animating := false)
    ensures forall i | 0 < i < |trace| :: OneKeystroke(trace[i - 1].typed, trace[i].typed)
    ensures forall i | 0 <= i <= |GetNode(s.nodeId).prompt| :: trace[i].typed == TypeStates(GetNode(s.nodeId).prompt)[i]
  {
    var prompt := GetNode(s.nodeId).prompt;
    var write := WithTexts(s.(animating := true), TypeStates(prompt));
    var trace := write + [s.(typed := prompt, showUserArea := true, animating := false)];
    EnterShape(s, prompt, trace);
    trace
  }

  lemma EnterShape(s: Session, prompt: string, trace: seq<Session>)
    requires trace == WithTexts(s.(animating := true), TypeStates(prompt))
      + [s.(typed := prompt, showUserArea := true, animating := false)]
    ensures |trace| == |prompt| + 2
    ensures forall i | 0 <= i < |trace| - 1 :: trace[i].animating && trace[i].nodeId == s.nodeId
    ensures forall i | 0 < i < |trace| :: OneKeystroke(trace[i - 1].typed, trace[i].typed)
    ensures forall i | 0 <= i <= |prompt| :: trace[i].typed == TypeStates(prompt)[i]
  {
    var t := TypeStates(prompt);
    forall i | 0 < i < |trace|
      ensures OneKeystroke(trace[i - 1].typed, trace[i].typed)
    {
      if i < |trace| - 1 {
        assert trace[i].typed == t[i] == t[i - 1] + [prompt[i - 1]];
      } else {
        assert trace[i - 1].typed == t[|prompt|] == prompt;
      }
    }
  }

  /** From the initial state, entering the terminal leaves it at rest on
      the first node with its choices visible. */
  lemma StartEndsAtRest()
    ensures var trace := EnterTerminal(Initial);
      AtRest(Last(trace)) && Last(trace).showUserArea && Last(trace).nodeId == "start"
      && Last(trace).typed == "hi"
  {
  }
}

=== FILE: dialogue.dfy ===
/** The conversation graph shown in the terminal: a fixed list of nodes,
    each with a prompt to type and the choices offered beneath it. */
module Dialogue {
  import opened Wrappers

  datatype Choice = Choice(caption: string, nextId: string)

  datatype Node = Node(id: string, prompt: string, options: seq<Choice>)

  const Nodes: seq<Node> := [
    Node("start", "hi",
      [Choice("Hello", "q1"), Choice("Absolutely not", "end")]),
    Node("q1", "quick question... what did you do today?",
      [Choice("Worked", "q2"), Choice("Rested", "q2"), Choice("I\U{2019}m not sure", "q2")]),
    Node("q2", "do you feel present right now?",
      [Choice("Yes", "end"), Choice("No", "end")]),
    Node("end", "i see.",
      [Choice("\U{2026}", "start")])
  ]

  predicate HasNode(id: string) {
    exists i | 0 <= i < |Nodes| :: Nodes[i].id == id
  }

  /** `Array.prototype.find` on ids: the position of the first node with
      this id, scanning from the front. */
  function Find(nodes: seq<Node>, id: string): (i: Option<nat>)
    ensures i.Some? ==> i.value < |nodes| && nodes[i.value].id == id
    ensures i.Some? ==> forall j | 0 <= j < i.value :: nodes[j].id != id
    ensures i.None? <==> forall j | 0 <= j < |nodes| :: nodes[j].id != id
  {
    if |nodes| == 0 then None
    else if nodes[0].id == id then Some(0)
    else
      match Find(nodes[1..], id)
      case None => None
      case Some(k) => Some(k + 1)
  }

  /** `getNode`: the node with this id, or the first node when there is none. */
  function GetNode(id: string): (n: Node)
    ensures n in Nodes
    ensures HasNode(id) ==> n.id == id
    ensures !HasNode(id) ==> n == Nodes[0]
  {
    match Find(Nodes, id)
    case Some(i) => Nodes[i]
    case None => Nodes[0]
  }

  lemma IdsAreUnique()
    ensures forall i, j | 0 <= i < j < |Nodes| :: Nodes[i].id != Nodes[j].id
  {
  }

  /** Looking a node up by its own id finds that node, so the fallback to
      the first node never shadows a later one. */
  lemma GetNodeFindsEachNode(i: nat)
    requires i < |Nodes|
    ensures GetNode(Nodes[i].id) == Nodes[i]
  {
    IdsAreUnique();
  }

  /** Every choice leads to a node that exists: picking never falls back. */
  lemma EveryChoiceLeadsToANode(n: Node, c: Choice)
    requires n in Nodes && c in n.options
    ensures HasNode(c.nextId)
    ensures GetNode(c.nextId).id == c.nextId
  {
    assert Nodes[0].id == "start" && Nodes[1].id == "q1" && Nodes[2].id == "q2" && Nodes[3].id == "end";
  }

  /** How many picks a node is from "end" (unknown ids count as "start"). */
  function StepsToEnd(id: string): nat {
    if id == "end" then 0
    else if id == "q2" then 1
    else if id == "q1" then 2
    else 3
  }

  /** Every choice away from "end" moves strictly closer to it, so any run
      of picks reaches "end" within three picks; from "end" the only choice
      starts the conversation over. */
  lemma ConversationReachesEnd(n: Node, c: Choice)
    requires n in Nodes && c in n.options
    ensures n.id != "end" ==> StepsToEnd(c.nextId) < StepsToEnd(n.id)
    ensures n.id == "end" ==> c.nextId == "start" && GetNode(c.nextId) == Nodes[0]
  {
  }

  /** Following the choice at position k of node `id`; a node's options are
      never empty, so every node offers a way forward. */
  function Follow(id: string, k: nat): (next: Node)
    requires k < |GetNode(id).options|
    ensures next in Nodes
    ensures next.id == GetNode(id).options[k].nextId
  {
    var n := GetNode(id);
    EveryChoiceLeadsToANode(n, n.options[k]);
    GetNode(n.options[k].nextId)
  }

  lemma EveryNodeOffersAChoice(n: Node)
    requires n in Nodes
    ensures 1 <= |n.options|
  {
  }
}

=== FILE: experience.dfy ===
/** One animation frame of the component: the canvas is resized to its box
    and the terminal text, with its cursor, is drawn with the component's
    fixed look. */
module Experience {
  import opened Wrappers
  import opened RetroOptions
  import opened Compositor
  import opened ColorParse
  import opened PixelIndex
  import opened CanvasSize
  import opened Typewriter

  /** An option object with all nine keys present. */
  predicate GivesEveryKey(p: Overrides) {
    && p.text.Some? && p.fontSize.Some? && p.pixelScale.Some? && p.rgbOffset.Some?
    && p.scanlineAlpha.Some? && p.maskAlpha.Some? && p.flicker.Some? && p.background.Some?
    && p.fontFamily.Some?
  }

  /** The option object the component memoises from the canvas text. */
  function CanvasOverrides(typed: string, cursorOn: bool): (p: Overrides)
    ensures GivesEveryKey(p)
    ensures AllOf(WithDefaults(p)) == p
  {
    Overrides(Some(CanvasText(typed, cursorOn)), Some(64.0), Some(3), Some(2.0), Some(0.18),
              Some(0.22), Some(0.04), Some("#0b0b0b"), Some(DefaultFontFamily))
  }

  /** The component gives every option, so no default reaches the frame:
      it is drawn with the component's own look and the current text. */
  lemma ComponentOptionsOverrideAllDefaults(typed: string, cursorOn: bool)
    ensures var o := WithDefaults(CanvasOverrides(typed, cursorOn));
      && o.text == CanvasText(typed, cursorOn)
      && o.pixelScale == 3 && o.fontSize == 64.0 && o.rgbOffset == 2.0
      && o.scanlineAlpha == 0.18 && o.maskAlpha == 0.22 && o.flicker == 0.04
      && FontFamily(o) == DefaultFontFamily
      && o.fontSize != Defaults.fontSize && o.scanlineAlpha != Defaults.scanlineAlpha
      && o.flicker != Defaults.flicker
  {
  }

  /** `draw`: resize the canvas to its box, then render the terminal text
      at the returned ratio. The glyph buffer and the frame's random draw
      are inputs. */
  method DrawFrame(canvas: Canvas, rectWidth: real, rectHeight: real, ratio: Option<real>,
                   typed: string, cursorOn: bool, computedBackground: string,
                   src: seq<byte>, u: real)
    returns (resized: Resized, f: Frame)
    requires var r := ResizeCanvasToElement(canvas, rectWidth, rectHeight, ratio);
      |src| == LowSize(r.canvas.width, 3) * LowSize(r.canvas.height, 3) * 4
    requires 0.0 <= u < 1.0
    ensures resized == ResizeCanvasToElement(canvas, rectWidth, rectHeight, ratio)
    ensures 1 <= resized.canvas.width && 1 <= resized.canvas.height
    ensures |f.pixels| == resized.canvas.width * resized.canvas.height * 4
    ensures var w, h := resized.canvas.width, resized.canvas.height;
      var st := FrameSetup(w, h, resized.dpr, WithDefaults(CanvasOverrides(typed, cursorOn)),
                           ComputedToRgb(computedBackground), src, u);
      && st.Valid()
      && forall x, y | 0 <= x < w && 0 <= y < h :: Quad(f.pixels, Idx(x, y, w)) == Some(Pixel(st, x, y))
    ensures forall y: int :: y in f.scanlines <==> 0 <= y < resized.canvas.height && y % 3 == 0
  {
    resized := ResizeCanvasToElement(canvas, rectWidth, rectHeight, ratio);
    var p := CanvasOverrides(typed, cursorOn);
    assert WithDefaults(p).pixelScale == 3 && 0.0 < WithDefaults(p).scanlineAlpha;
    f := RenderRetro(resized.canvas.width, resized.canvas.height, resized.dpr, p,
                     computedBackground, src, u);
  }
}

=== FILE: phases.dfy ===
/** The screen's phases: a warning overlay, its fade-out, the terminal's
    fade-in and the terminal itself, and what each phase shows. */
module Phases {
  datatype Phase = Warning | WarningFading | TerminalFadingIn | Terminal

  /** What the component derives from the phase for rendering. */
  datatype Flags = Flags(showWarning: bool, warningFading: bool, terminalVisible: bool, terminalFadingIn: bool)

  function FlagsOf(p: Phase): (f: Flags)
    ensures f.warningFading ==> f.showWarning && f.terminalVisible
    ensures f.terminalFadingIn ==> !f.showWarning && f.terminalVisible
    ensures f.showWarning || f.terminalVisible
  {
    Flags(
      p == Warning || p == WarningFading,
      p == WarningFading,
      p != Warning,
      p == TerminalFadingIn)
  }

  /** Position of a phase in the order the screen goes through them. */
  function Rank(p: Phase): nat {
    match p
    case Warning => 0
    case WarningFading => 1
    case TerminalFadingIn => 2
    case Terminal => 3
  }

  /** The flags are thresholds on the phase order: the warning shows up to
      its fade-out, the terminal from that fade-out on, so the two overlap
      exactly while the warning fades. */
  lemma FlagsFollowOrder(p: Phase)
    ensures FlagsOf(p).showWarning <==> Rank(p) <= 1
    ensures FlagsOf(p).terminalVisible <==> 1 <= Rank(p)
    ensures FlagsOf(p).showWarning && FlagsOf(p).terminalVisible <==> p == WarningFading
    ensures FlagsOf(p).warningFading <==> Rank(p) == 1
    ensures FlagsOf(p).terminalFadingIn <==> Rank(p) == 2
  {
  }

  /** The cursor blinks once the terminal is active. */
  predicate CursorBlinks(p: Phase): (b: bool)
    ensures b <==> p == TerminalFadingIn || p == Terminal
  {
    !(p == Warning || p == WarningFading)
  }

  lemma CursorBlinksWithoutWarning(p: Phase)
    ensures CursorBlinks(p) <==> !FlagsOf(p).showWarning
    ensures CursorBlinks(p) <==> 2 <= Rank(p)
  {
  }

  /** Changes of phase: the Continue button, then each 520 ms timer. */
  datatype Event = ContinuePressed | FadeOutDone | FadeInDone

  /** The phase each event sets. Each handler calls `setPhase` with a fixed
      phase and never reads the current one, so the result does not depend on
      p; p stays a parameter so that a run reads as a state machine. */
  function Step(p: Phase, e: Event): (q: Phase)
    ensures e == ContinuePressed ==> FlagsOf(q).warningFading
    ensures e == FadeOutDone ==> FlagsOf(q).terminalFadingIn
    ensures e == FadeInDone ==> FlagsOf(q).terminalVisible && !FlagsOf(q).showWarning && !FlagsOf(q).terminalFadingIn
    ensures Rank(q) >= 1
  {
    match e
    case ContinuePressed => WarningFading
    case FadeOutDone => TerminalFadingIn
    case FadeInDone => Terminal
  }

  /** The phases a sequence of events passes through after p, one per event;
      each is the phase its own event sets, whatever came before it. */
  function Run(p: Phase, events: seq<Event>): (trace: seq<Phase>)
    ensures |trace| == |events|
    ensures forall i | 0 <= i < |events| :: trace[i] == Step(p, events[i])
    decreases |events|
  {
    if events == [] then []
    else
      var q := Step(p, events[0]);
      [q] + Run(q, events[1..])
  }

  /** `onContinue` sets the phase and schedules the two timers, which fire
      in this order. */
  const ContinueSchedule: seq<Event> := [ContinuePressed, FadeOutDone, FadeInDone]

  /** From the warning, pressing Continue walks the phases in order, one
      rank at a time, and ends in the terminal. */
  lemma {:induction false} ContinueWalksThePhases()
    ensures var trace := [Warning] + Run(Warning, ContinueSchedule);
      && |trace| == 4
      && (forall i | 0 <= i < |trace| :: Rank(trace[i]) == i)
      && trace[3] == Terminal
  {
    var r := Run(Warning, ContinueSchedule);
    assert r == [WarningFading] + Run(WarningFading, ContinueSchedule[1..]);
    assert Run(WarningFading, ContinueSchedule[1..]) == [TerminalFadingIn] + Run(TerminalFadingIn, ContinueSchedule[2..]);
    assert Run(TerminalFadingIn, ContinueSchedule[2..]) == [Terminal] + Run(Terminal, []);
  }

  /** The terminal prompt is typed on entering the terminal phase and at no
      other phase change. */
  predicate StartsTyping(before: Phase, after: Phase) {
    after == Terminal && before != Terminal
  }

  lemma ContinueTypesOnce()
    ensures var trace := [Warning] + Run(Warning, ContinueSchedule);
      forall i | 0 < i < |trace| :: StartsTyping(trace[i - 1], trace[i]) <==> i == 3
  {
    ContinueWalksThePhases();
  }

  /** Each timer `onContinue` sets waits this many milliseconds. */
  const FadeMs: int := 520

  /** Times of Continue presses: the button is rendered only while the
      warning shows, which ends when the first press's first timer fires. */
  predicate PressesWhileWarningShows(presses: seq<int>) {
    && 1 <= |presses|
    && (forall i, j | 0 <= i < j < |presses| :: presses[i] < presses[j])
    && (forall i | 0 <= i < |presses| :: presses[i] < presses[0] + FadeMs)
  }

  /** Every press comes before every first timer, and every first timer
      before every second timer, whichever press scheduled them. */
  lemma TimersFireAfterAllPresses(presses: seq<int>)
    requires PressesWhileWarningShows(presses)
    ensures forall i, j | 0 <= i < |presses| && 0 <= j < |presses| :: presses[i] < presses[j] + FadeMs
    ensures forall i, j | 0 <= i < |presses| && 0 <= j < |presses| ::
      presses[i] + FadeMs < presses[j] + 2 * FadeMs
  {
    forall i, j | 0 <= i < |presses| && 0 <= j < |presses|
      ensures presses[i] < presses[j] + FadeMs
    {
      assert presses[0] <= presses[j] by {
        if 0 < j {
        }
      }
    }
  }

  function Repeat(e: Event, k: nat): (r: seq<Event>)
    ensures |r| == k
    ensures forall i | 0 <= i < k :: r[i] == e
  {
    seq(k, _ => e)
  }

  /** The events of k presses in the order the previous lemma fixes. */
  function PressedTimes(k: nat): seq<Event> {
    Repeat(ContinuePressed, k) + Repeat(FadeOutDone, k) + Repeat(FadeInDone, k)
  }

  /** The phase after the i-th of the events of k presses, the warning
      itself at position 0. */
  function PhaseAfter(i: nat, k: nat): Phase {
    if i == 0 then Warning
    else if i <= k then WarningFading
    else if i <= 2 * k then TerminalFadingIn
    else Terminal
  }

  lemma {:induction false} PressedPhases(k: nat)
    requires 1 <= k
    ensures var trace := [Warning] + Run(Warning, PressedTimes(k));
      && |trace| == 3 * k + 1
      && forall i | 0 <= i < |trace| :: trace[i] == PhaseAfter(i, k)
  {
    var es := PressedTimes(k);
    var r := Run(Warning, es);
    forall i | 0 <= i < |r|
      ensures r[i] == PhaseAfter(i + 1, k)
    {
      if i < k {
        assert es[i] == ContinuePressed;
      } else if i < 2 * k {
        assert es[i] == FadeOutDone;
      } else {
        assert es[i] == FadeInDone;
      }
    }
  }

  /** Pressing Continue k times while the warning shows still walks the
      phases forward only, ends in the terminal, and enters the terminal
      (so starts typing) exactly once. */
  lemma {:induction false} RepeatedContinueOnlyMovesForward(k: nat)
    requires 1 <= k
    ensures var trace := [Warning] + Run(Warning, PressedTimes(k));
      && |trace| == 3 * k + 1
      && (forall i, j | 0 <= i <= j < |trace| :: Rank(trace[i]) <= Rank(trace[j]))
      && trace[3 * k] == Terminal
      && (forall i | 0 < i < |trace| :: StartsTyping(trace[i - 1], trace[i]) <==> i == 2 * k + 1)
  {
    PressedPhases(k);
  }
}

=== FILE: pixel_index.dfy ===
/** Layout of a row-major RGBA byte buffer, as used both for the low-resolution
    glyph buffer and for the output image data: pixel (x, y) of a buffer
    `width` pixels wide occupies the four bytes starting at `Idx(x, y, width)`. */
module PixelIndex {

  /** Byte offset of the red channel of pixel (x, y). */
  function Idx(x: int, y: int, width: int): (i: int)
    ensures 0 <= x < width && 0 <= y ==> 0 <= y * width * 4 <= i && i + 4 <= (y * width + width) * 4
  {
    (y * width + x) * 4
  }

  /** Multiplication by a non-negative factor is monotone. */
  lemma MulMono(a: int, b: int, c: int)
    requires a <= b && 0 <= c
    ensures a * c <= b * c
  {
    assert b * c - a * c == (b - a) * c;
  }

  /** Pixels earlier in row-major order have their four bytes wholly before
      the bytes of later pixels. */
  lemma IdxOrdered(x': int, y': int, x: int, y: int, w: int)
    requires 0 <= x' < w && 0 <= x < w
    requires y' < y || (y' == y && x' < x)
    ensures Idx(x', y', w) + 4 <= Idx(x, y, w)
  {
    if y' < y {
      MulMono(y' + 1, y, w);
      assert y' * w + x' < (y' + 1) * w;
    }
  }

  /** Every pixel of a w x h image addresses four bytes inside the
      w * h * 4 byte buffer. */
  lemma IdxInBounds(x: int, y: int, w: int, h: int)
    requires 0 <= x < w && 0 <= y < h
    ensures 0 <= Idx(x, y, w)
    ensures Idx(x, y, w) + 3 < w * h * 4
  {
    MulMono(0, y, w);
    MulMono(y + 1, h, w);
    assert y * w + x < (y + 1) * w;
  }

  /** Distinct pixels get disjoint byte ranges: a byte offset determines the
      pixel and the channel it belongs to. */
  lemma IdxInjective(x: int, y: int, c: int, x': int, y': int, c': int, w: int)
    requires 0 <= x < w && 0 <= x' < w && 0 <= y && 0 <= y'
    requires 0 <= c < 4 && 0 <= c' < 4
    requires Idx(x, y, w) + c == Idx(x', y', w) + c'
    ensures x == x' && y == y' && c == c'
  {
    var k, k' := y * w + x, y' * w + x';
    assert k * 4 + c == k' * 4 + c';
    assert k == k' && c == c';
    if y < y' {
      IdxOrdered(x, y, x', y', w);
    } else if y' < y {
      IdxOrdered(x', y', x, y, w);
    }
  }

  /** Every byte of a w x h buffer belongs to some pixel of the image: the
      pixel is ((i / 4) % w, (i / 4) / w) and the channel is i % 4. Together
      with IdxInjective, each byte is written by exactly one pixel. */
  lemma IdxCovers(i: int, w: int, h: int)
    requires 0 <= h && 0 <= i < w * h * 4
    ensures var k := i / 4;
      && 0 <= k % w < w && 0 <= k / w < h
      && Idx(k % w, k / w, w) + i % 4 == i
  {
    var k := i / 4;
    assert 0 < w by {
      if w <= 0 { MulMono(w, 0, h); }
    }
    assert k < w * h;
    var q := k / w;
    assert q * w + k % w == k;
    if h <= q {
      MulMono(h, q, w);
      assert false;
    }
  }
}

=== FILE: retro_options.dfy ===
/** The options of the CRT renderer, their defaults, and the low-resolution
    quantities `renderRetro` derives from them before its pixel loop. */
module RetroOptions {
  import opened Wrappers

  /** A fully resolved option set. Sizes and offsets are in output (canvas)
      pixels; `pixelScale` is the integer downsampling factor. */
  datatype Options = Options(
    text: string,
    fontSize: real,
    pixelScale: int,
    rgbOffset: real,
    scanlineAlpha: real,
    maskAlpha: real,
    flicker: real,
    background: string,
    fontFamily: Option<string>)

  /** The caller's partial option object: each field may be absent. */
  datatype Overrides = Overrides(
    text: Option<string>,
    fontSize: Option<real>,
    pixelScale: Option<int>,
    rgbOffset: Option<real>,
    scanlineAlpha: Option<real>,
    maskAlpha: Option<real>,
    flicker: Option<real>,
    background: Option<string>,
    fontFamily: Option<string>)

  /** The defaults object; it has no `fontFamily` key. */
  const Defaults := Options("RETRO DISPLAY", 72.0, 3, 2.0, 0.22, 0.22, 0.08, "#0b0b0b", None)

  const NoOverrides := Overrides(None, None, None, None, None, None, None, None, None)

  /** The family used when the options name none. */
  const DefaultFontFamily := "\"Fixedsys Excelsior\",\"Fixedsys\",monospace"

  /** Every key the caller gives reaches the merged options as given. */
  predicate GivenKeysWin(p: Overrides, o: Options) {
    && (p.text.Some? ==> o.text == p.text.value)
    && (p.fontSize.Some? ==> o.fontSize == p.fontSize.value)
    && (p.pixelScale.Some? ==> o.pixelScale == p.pixelScale.value)
    && (p.rgbOffset.Some? ==> o.rgbOffset == p.rgbOffset.value)
    && (p.scanlineAlpha.Some? ==> o.scanlineAlpha == p.scanlineAlpha.value)
    && (p.maskAlpha.Some? ==> o.maskAlpha == p.maskAlpha.value)
    && (p.flicker.Some? ==> o.flicker == p.flicker.value)
    && (p.background.Some? ==> o.background == p.background.value)
    && (p.fontFamily.Some? ==> o.fontFamily == p.fontFamily)
  }

  /** Every key the caller leaves out keeps the default object's value. */
  predicate AbsentKeysDefault(p: Overrides, o: Options) {
    && (p.text.None? ==> o.text == Defaults.text)
    && (p.fontSize.None? ==> o.fontSize == Defaults.fontSize)
    && (p.pixelScale.None? ==> o.pixelScale == Defaults.pixelScale)
    && (p.rgbOffset.None? ==> o.rgbOffset == Defaults.rgbOffset)
    && (p.scanlineAlpha.None? ==> o.scanlineAlpha == Defaults.scanlineAlpha)
    && (p.maskAlpha.None? ==> o.maskAlpha == Defaults.maskAlpha)
    && (p.flicker.None? ==> o.flicker == Defaults.flicker)
    && (p.background.None? ==> o.background == Defaults.background)
    && (p.fontFamily.None? ==> o.fontFamily == Defaults.fontFamily)
  }

  /** The object spread `{ ...defaults, ...opts }`: a field the caller gives
      replaces the default one. */
  function WithDefaults(p: Overrides): (o: Options)
    ensures GivenKeysWin(p, o) && AbsentKeysDefault(p, o)
  {
    Options(
      p.text.GetOr(Defaults.text),
      p.fontSize.GetOr(Defaults.fontSize),
      p.pixelScale.GetOr(Defaults.pixelScale),
      p.rgbOffset.GetOr(Defaults.rgbOffset),
      p.scanlineAlpha.GetOr(Defaults.scanlineAlpha),
      p.maskAlpha.GetOr(Defaults.maskAlpha),
      p.flicker.GetOr(Defaults.flicker),
      p.background.GetOr(Defaults.background),
      if p.fontFamily.Some? then p.fontFamily else Defaults.fontFamily)
  }

  /** Every field of `o`, given explicitly. */
  function AllOf(o: Options): Overrides {
    Overrides(Some(o.text), Some(o.fontSize), Some(o.pixelScale), Some(o.rgbOffset),
              Some(o.scanlineAlpha), Some(o.maskAlpha), Some(o.flicker),
              Some(o.background), o.fontFamily)
  }

  /** An empty option object renders with exactly the defaults. */
  lemma EmptyOverridesGiveDefaults()
    ensures WithDefaults(NoOverrides) == Defaults
    ensures WithDefaults(NoOverrides).pixelScale == 3
    ensures FontFamily(WithDefaults(NoOverrides)) == DefaultFontFamily
  {
  }

  /** Giving every field explicitly leaves no default in effect. */
  lemma FullOverridesWin(o: Options)
    ensures WithDefaults(AllOf(o)) == o
  {
  }

  /** Overriding a single key, whichever it is, changes that key and leaves
      every other at its default. */
  lemma OverrideOneKeyOnly(o: Options)
    ensures WithDefaults(NoOverrides.(text := Some(o.text))) == Defaults.(text := o.text)
    ensures WithDefaults(NoOverrides.(fontSize := Some(o.fontSize))) == Defaults.(fontSize := o.fontSize)
    ensures WithDefaults(NoOverrides.(pixelScale := Some(o.pixelScale))) == Defaults.(pixelScale := o.pixelScale)
    ensures WithDefaults(NoOverrides.(rgbOffset := Some(o.rgbOffset))) == Defaults.(rgbOffset := o.rgbOffset)
    ensures WithDefaults(NoOverrides.(scanlineAlpha := Some(o.scanlineAlpha))) == Defaults.(scanlineAlpha := o.scanlineAlpha)
    ensures WithDefaults(NoOverrides.(maskAlpha := Some(o.maskAlpha))) == Defaults.(maskAlpha := o.maskAlpha)
    ensures WithDefaults(NoOverrides.(flicker := Some(o.flicker))) == Defaults.(flicker := o.flicker)
    ensures WithDefaults(NoOverrides.(background := Some(o.background))) == Defaults.(background := o.background)
    ensures WithDefaults(NoOverrides.(fontFamily := o.fontFamily)) == Defaults.(fontFamily := o.fontFamily)
  {
  }

  /** The font family handed to the rasterizer (`o.fontFamily ?? ...`). */
  function FontFamily(o: Options): (f: string)
    ensures o.fontFamily.Some? ==> f == o.fontFamily.value
    ensures o.fontFamily.None? ==> f == DefaultFontFamily
  {
    o.fontFamily.GetOr(DefaultFontFamily)
  }

  /** Nearest-neighbour downsampling of one output coordinate:
      `Math.floor(x / pixelScale)`. */
  function Downsample(x: nat, ps: int): (s: nat)
    requires 1 <= ps
    ensures s * ps <= x < (s + 1) * ps
  {
    x / ps
  }

  /** Low-resolution buffer side: `Math.max(1, Math.floor(n / pixelScale))`. */
  function LowSize(n: nat, ps: int): (low: int)
    requires 1 <= ps
    ensures 1 <= low
    ensures low == 1 || low * ps <= n < (low + 1) * ps
    ensures n < 2 * ps ==> low == 1
    ensures ps <= n ==> low * ps <= n < (low + 1) * ps
  {
    if n / ps < 1 then 1 else n / ps
  }

  /** Font size used at low resolution: `Math.max(6, Math.floor(fontSize / pixelScale))`. */
  function LowFontSize(fontSize: real, ps: int): (size: int)
    requires 1 <= ps
    ensures 6 <= size
    ensures size == 6 || (size as real <= fontSize / ps as real < size as real + 1.0)
    ensures 7.0 * ps as real <= fontSize ==> size as real <= fontSize / ps as real < size as real + 1.0
  {
    var f := (fontSize / ps as real).Floor;
    if f < 6 then 6 else f
  }

  /** Channel misalignment in low-resolution pixels:
      `Math.max(0, Math.floor(rgbOffset * dpr / pixelScale))`. */
  function RgbOffLow(rgbOffset: real, dpr: real, ps: int): (off: int)
    requires 1 <= ps
    ensures 0 <= off
    ensures off == 0 || (off as real <= rgbOffset * dpr / ps as real < off as real + 1.0)
    ensures rgbOffset * dpr < ps as real ==> off == 0
    ensures ps as real <= rgbOffset * dpr ==> 1 <= off && off as real <= rgbOffset * dpr / ps as real < off as real + 1.0
  {
    var f := (rgbOffset * dpr / ps as real).Floor;
    if ps as real <= rgbOffset * dpr then QuotientAtLeastOne(rgbOffset * dpr, ps as real); f
    else if f < 0 then 0 else f
  }

  /** Dividing by a positive number no larger than the dividend gives at least 1. */
  lemma QuotientAtLeastOne(x: real, d: real)
    requires 0.0 < d <= x
    ensures 1.0 <= x / d
  {
  }

  /** A product of non-negative reals is non-negative. */
  lemma RealMulNonneg(a: real, b: real)
    requires 0.0 <= a && 0.0 <= b
    ensures 0.0 <= a * b
  {
  }

  /** The per-frame brightness multiplier `1 + (u * 2 - 1) * flicker`, where
      `u` is the frame's uniform draw from [0, 1). */
  function Flick(u: real, flicker: real): (f: real)
    requires 0.0 <= u < 1.0
    ensures 0.0 <= flicker ==> 1.0 - flicker <= f <= 1.0 + flicker
    ensures 0.0 <= flicker <= 1.0 ==> 0.0 <= f
    ensures flicker == 0.0 ==> f == 1.0
  {
    var t := u * 2.0 - 1.0;
    if 0.0 <= flicker then
      RealMulNonneg(1.0 - t, flicker);
      RealMulNonneg(1.0 + t, flicker);
      1.0 + t * flicker
    else
    1.0 + t * flicker
  }

  /** The factor follows the draw: the smallest draw darkens by the full
      flicker, the middle draw leaves the frame unchanged, and a larger draw
      gives a strictly brighter frame whenever there is flicker; the factor
      departs from 1 by exactly `(2u - 1) * flicker`. */
  lemma FlickFollowsDraw(u: real, u': real, flicker: real)
    requires 0.0 <= u < u' < 1.0
    ensures Flick(0.0, flicker) == 1.0 - flicker
    ensures Flick(0.5, flicker) == 1.0
    ensures 0.0 < flicker ==> Flick(u, flicker) < Flick(u', flicker)
    ensures Flick(u, flicker) - 1.0 == (2.0 * u - 1.0) * flicker
  {
    if 0.0 < flicker {
      FlickIncreasing(u, u', flicker);
    }
  }

  lemma FlickIncreasing(u: real, u': real, flicker: real)
    requires 0.0 <= u < u' < 1.0 && 0.0 < flicker
    ensures Flick(u, flicker) < Flick(u', flicker)
  {
    var gap := (u' - u) * 2.0;
    RealMulPos(gap, flicker);
    assert Flick(u', flicker) - Flick(u, flicker) == gap * flicker;
  }

  /** A product of positive reals is positive. */
  lemma RealMulPos(a: real, b: real)
    requires 0.0 < a && 0.0 < b
    ensures 0.0 < a * b
  {
  }
}

=== FILE: typewriter.dfy ===
/** The terminal's text: what the canvas is asked to draw, and the
    successive values of the typed text while a prompt is typed out or
    erased. */
module Typewriter {
  const Cursor: char := '\U{258C}'

  predicate IsPrefix(a: string, b: string) {
    |a| <= |b| && b[..|a|] == a
  }

  /** `terminalTextForCanvas`: the typed text followed by the cursor glyph
      when the cursor is on, or a space when it is off, so the text's width
      does not change as the cursor blinks. */
  function CanvasText(typed: string, cursorOn: bool): (t: string)
    ensures |t| == |typed| + 1
    ensures IsPrefix(typed, t)
    ensures t[|typed|] == Cursor <==> cursorOn
    ensures !cursorOn ==> t[|typed|] == ' '
  {
    typed + [if cursorOn then Cursor else ' ']
  }

  /** The drawn text determines both the typed text and the cursor. */
  lemma CanvasTextIsInjective(a: string, c: bool, b: string, d: bool)
    requires CanvasText(a, c) == CanvasText(b, d)
    ensures a == b && c == d
  {
    assert a == CanvasText(a, c)[..|a|];
  }

  /** The values `typeTo(full)` gives the typed text: first the empty
      text, then one more character of `full` at each step. */
  function TypeStates(full: string): (states: seq<string>)
    ensures |states| == |full| + 1
    ensures states[0] == [] && states[|full|] == full
    ensures forall i | 0 < i < |states| :: states[i] == states[i - 1] + [full[i - 1]]
  {
    seq(|full| + 1, i requires 0 <= i <= |full| => full[..i])
  }

  /** The values `untype()` gives the typed text: the last character is
      dropped at each step until nothing is left. Empty text gives no step. */
  function UntypeStates(typed: string): (states: seq<string>)
    ensures |states| == |typed|
    ensures 0 < |typed| ==> states[|typed| - 1] == []
    ensures forall i | 0 <= i < |states| :: IsPrefix(states[i], typed) && |states[i]| == |typed| - 1 - i
    ensures forall i | 0 < i < |states| :: states[i - 1] == states[i] + [typed[|states[i]|]]
  {
    seq(|typed|, i requires 0 <= i < |typed| => typed[..|typed| - 1 - i])
  }

  /** Erasing a text retraces, backwards, the steps of typing it. */
  lemma {:induction false} UntypeRetracesTyping(t: string)
    ensures forall i | 0 <= i < |t| :: UntypeStates(t)[i] == TypeStates(t)[|t| - 1 - i]
  {
    var u, v := UntypeStates(t), TypeStates(t);
    forall i | 0 <= i < |t|
      ensures u[i] == v[|t| - 1 - i]
    {
      assert |u[i]| == |t| - 1 - i && IsPrefix(u[i], t);
      TypedPrefix(t, |t| - 1 - i);
    }
  }

  /** The i-th typed value is the i-character prefix. */
  lemma {:induction false} TypedPrefix(full: string, i: nat)
    requires i <= |full|
    ensures TypeStates(full)[i] == full[..i]
  {
    var s := TypeStates(full);
    if i == 0 {
    } else {
      TypedPrefix(full, i - 1);
      assert s[i] == s[i - 1] + [full[i - 1]];
      assert full[..i] == full[..i - 1] + [full[i - 1]];
    }
  }

  /** `typeTo` as its loop runs: clear the text, then set it to each longer
      prefix of `full` in turn. */
  method TypeTo(full: string) returns (states: seq<string>)
    ensures states == TypeStates(full)
  {
    states := [[]];
    var i := 1;
    while i <= |full|
      invariant 1 <= i <= |full| + 1
      invariant |states| == i
      invariant forall j | 0 <= j < i :: states[j] == full[..j]
    {
      states := states + [full[..i]];
      i := i + 1;
    }
  }

  /** `untype` as its loop runs: drop the last character of the current
      text until it is empty, recording each value set. */
  method Untype(typed: string) returns (states: seq<string>)
    ensures states == UntypeStates(typed)
  {
    states := [];
    var current := typed;
    while 0 < |current|
      invariant IsPrefix(current, typed)
      invariant |states| == |typed| - |current|
      invariant forall j | 0 <= j < |states| :: states[j] == typed[..|typed| - 1 - j]
    {
      current := current[..|current| - 1];
      states := states + [current];
    }
  }
}

=== FILE: wrappers.dfy ===
/** The optional value used throughout the model: `None` plays the part of
    JavaScript's `undefined` (a missing key, a failed `find`, an out-of-range
    typed-array read). */
module Wrappers {

  datatype Option<+T> = None | Some(value: T) {

    /** The value, or `default` when there is none (JavaScript's `??`). */
    function GetOr(default: T): T {
      match this
      case Some(v) => v
      case None => default
    }
  }
}
